=== FILE: README.md ===
# Metriport core, modelled in Dafny

This project models the statable core of the Metriport API and connect
widget as pure Dafny functions over immutable datatypes, and proves what
the code guarantees about them.

- **CommonWell patient identity sync** (`patient.dfy`, module
  `CommonwellPatient`). This covers `create`, `update` and `remove` of a
  local patient against the CommonWell network, together with
  `registerPatient`, `updatePatient`, `findOrCreatePersonAndLink`,
  `getLinkInfo` and the derived `getLinkStatus`.
  - Each network call is made at most once per operation, so the network is
    a record of the responses it gives (`Network`).
  - An operation returns a `Run`: the ordered events it caused (calls
    issued, `setCommonwellId` writes, `capture.error` reports) and how it
    ended.
  - `ApplyStores` replays the writes onto the patient's external data, so
    "which ids are persisted, and when" becomes a statement about a run.
  - `setupUpdate` is inlined: `CommonwellEntry` reads the COMMONWELL entry
    and `patientDataFound` stands for `getPatientData`.
- **CommonWell document query** (`document_query.dfy`, module
  `DocumentQuery`). This covers `queryDocuments`, `internalGetDocuments`
  and `downloadDocsAndUpsertFHIR`.
  - The response is partitioned into document references and operation
    outcomes, and invalid references are dropped.
  - Each document follows the skip/override rule of `fileExists`.
  - `Promise.allSettled` is a sequential fold, since every document's step
    is independent of the others.
  - Progress is written per document, and the `completed` status write sits
    in the `finally`.
- **Document DTO projection** (`document_dto.dfy`, module `DocumentDTO`):
  `toDTO`.
- **Query-status predicate** (`document_status.dfy`, module
  `DocumentStatus`): `areDocumentsProcessing` over a store of patients
  keyed by (id, cxId).
- **Shared patient record** (`patients.dfy`, module `Patients`): the
  COMMONWELL external data, the query status, and the effects of
  `setCommonwellId` and `updateDocQuery`.
- **Helpers**:
  - `Util` (`util.dfy`): `optional`, `oneOf`, `isTokenExpired`, the delay
    `sleepRandom` chooses, `getMinMaxItem` and `addDataToObject`.
  - `Facility` (`facility.dfy`): facility id allocation and the OID built by
    the `beforeCreate` hook.
  - `PopulateFhir` (`admin_populate_fhir.dfy`): `populateFhirServer`.
  - `Providers` (`providers.dfy`): the connect widget's provider selection,
    with local storage as a map.
  - `ActivityTypes` (`activity_types.dfy`): the Garmin activity-type table
    and `activityTypeReadable`.
  - `GoogleMappings` (`google.dfy`): Google Fit `getValues`.
- **Support modules**:
  - `Wrappers`: `Option`, `Result` and JavaScript truthiness of optional
    strings.
  - `Remote`: network errors and their HTTP status.
  - `Strings`: `split`, ASCII case mapping, lodash `capitalize`, and
    decimal rendering of naturals.

Behaviour of the code that the model keeps, including where it is easy to
misread:

- `queryDocuments` calls `getPatientData` before its `try`. When the
  organization or facility is missing, the call fails there, and no
  `completed` status is written.
- `downloadDocsAndUpsertFHIR` starts the step of every document at once and
  waits for all of them with `Promise.allSettled`.
- A document that is already stored and not overridden contributes nothing
  to the returned list. A second run over unchanged documents therefore
  returns an empty list (`StoredDocumentsAreSkipped`).
- Usage is reported once, and only when a non-sandbox run succeeds.
- `completedCount` is a counter local to the run. It is incremented only
  when the patient reloads, so the last progress write reaches the number
  of documents only when every reload succeeds.
- In `update`, the `create` of the self-heal path is returned without
  `await`, so its rejection is captured once, by `create` itself.
- In `update`, the `catch` around the Person update also covers
  `reenrollPerson`, so a 404 from re-enrolment triggers the same
  find-or-create fallback.

## Model

| member | source | states |
|---|---|---|
| CommonwellPatient.GetLinkStatus | api/app/src/external/commonwell/patient.ts:31-36 | Without external data the status is needs-review. When a COMMONWELL entry exists, the status is linked exactly when its personId is truthy. External data without a COMMONWELL entry makes the call throw, and it succeeds exactly when it does not hit that case |
| CommonwellPatient.GetLinkStatusThrowsWithoutCommonwellEntry | api/app/src/external/commonwell/patient.ts:31-36 | Empty external data, or external data holding only another source, throws instead of giving a status |
| CommonwellPatient.LinkStatusOf | api/app/src/external/commonwell/patient.ts:31-36 | Corrected status: linked if and only if a COMMONWELL entry with a truthy personId exists; needs-review otherwise |
| CommonwellPatient.LinkStatusOfAgrees | api/app/src/external/commonwell/patient.ts:31-36 | The corrected status equals the original's answer whenever the original does not throw |
| CommonwellPatient.FirstOrNone | api/app/src/external/commonwell/patient.ts:339-342 | The link proof is the first matching strong id, or none exactly when no strong id matches |
| CommonwellPatient.RegisterPatient | api/app/src/external/commonwell/patient.ts:360-400 | A missing id throws with nothing stored. Otherwise the id is stored before the self link is checked, so a missing self link throws with the id already stored. Success is exactly id and self link both present, and returns them |
| CommonwellPatient.FindOrCreatePersonAndLink | api/app/src/external/commonwell/patient.ts:297-358 | No Person found: returns undefined with no link call. Otherwise the person id is stored first, then addPatientLink is issued with the first strong id as proof, then the links are auto-upgraded; success returns the person id. A link call is issued if and only if a Person was found, and every write carries the given patient id |
| CommonwellPatient.UpdatePatient | api/app/src/external/commonwell/patient.ts:402-433 | One updatePatient call. Success exactly when the answer has a self link, which is returned; remote errors propagate |
| CommonwellPatient.LinkToPatient | api/app/src/external/commonwell/patient.ts:455-459 | The first patient link whose patient reference is truthy and contains the CommonWell patient id. None exactly when no link refers to it; an absent or empty reference never refers |
| CommonwellPatient.Refers | api/app/src/external/commonwell/patient.ts:455-459 | The test of one link: a truthy patient reference that contains the id. It has no ensures of its own: LinkToPatient and EmptyReferenceSkipped carry its contract |
| CommonwellPatient.EmptyReferenceSkipped | api/app/src/external/commonwell/patient.ts:455-459 | An empty reference does not match even an empty id, and a later link with the id still matches |
| CommonwellPatient.GetLinkInfo | api/app/src/external/commonwell/patient.ts:435-468 | hasLink exactly when the link to the patient has a truthy assurance level. isLinkLola3Plus exactly when that level is "3" or "4", which implies hasLink. The strong ids are passed through |
| CommonwellPatient.UpgradeLink | api/app/src/external/commonwell/patient.ts:186-213 | After fetching the links, addPatientLink is issued if and only if there is no leveled link, or the link is below LOLA 3 and a strong id matches. The first strong id is the proof. Fetch and link failures propagate |
| CommonwellPatient.ShouldLink | api/app/src/external/commonwell/patient.ts:196-205 | The upgrade rule: link when there is no leveled link, or it is below LOLA 3 and a strong id matches. It has no ensures of its own: UpgradeLink and Lola3PlusLinkIsNotUpgraded carry its contract |
| CommonwellPatient.Lola3PlusLinkIsNotUpgraded | api/app/src/external/commonwell/patient.ts:196-205 | A link already at level 3 or 4 never triggers addPatientLink |
| CommonwellPatient.NotFoundFallback | api/app/src/external/commonwell/patient.ts:154-175 | A 404 runs find-or-create-and-link and ends the update. Any other error is rethrown unchanged |
| CommonwellPatient.UpdatePersonStep | api/app/src/external/commonwell/patient.ts:142-184 | An enrolled Person leads on to the link upgrade. An unenrolled one is re-enrolled, and a successful re-enrolment also leads on to the upgrade. A 404 from the Person update or from the re-enrolment falls back to find-or-create-and-link and ends the update. Any other error from either call is rethrown |
| CommonwellPatient.Create | api/app/src/external/commonwell/patient.ts:60-104 | Succeeds exactly when patient data is found, registration succeeds and find-or-create-and-link succeeds. A failure is captured exactly once, as the last event, and rethrown |
| CommonwellPatient.CreateSteps | api/app/src/external/commonwell/patient.ts:60-91 | The body of the try block never captures an error; capturing is left to the catch in Create |
| CommonwellPatient.Update | api/app/src/external/commonwell/patient.ts:106-234 | Without a COMMONWELL entry it is exactly create. Otherwise it succeeds exactly when every step it takes succeeds (`UpdateSucceeds`), and every id it stores keeps the existing CommonWell patient id. A failure is captured exactly once, as the last event, and rethrown |
| CommonwellPatient.UpdateSteps | api/app/src/external/commonwell/patient.ts:111-233 | Without patient data it fails with no call. Otherwise updatePatient is the first call. It never captures, and every write keeps the CommonWell patient id |
| CommonwellPatient.UpdateStepsOutcome | api/app/src/external/commonwell/patient.ts:118-233 | The steps succeed exactly when patient data is found, updatePatient returns a link, and then find-or-create-and-link succeeds (no person id), or the Person step succeeds and, unless it fell back, the link upgrade and auto-upgrade succeed |
| CommonwellPatient.UpdateStepsEvents | api/app/src/external/commonwell/patient.ts:118-233 | The calls in order: updatePatient, then find-or-create-and-link without a truthy person id; otherwise the Person step, then the link upgrade and auto-upgrade when it goes on. Each failure ends the run |
| CommonwellPatient.Remove | api/app/src/external/commonwell/patient.ts:236-263 | Without a COMMONWELL entry it succeeds with no call. Otherwise it issues deletePatient for the stored id and succeeds exactly when that succeeds. It never writes ids; failures are captured and rethrown |
| CommonwellPatient.ApplyStores | api/app/src/external/commonwell/patient.ts:43-58 | Replaying a run's setCommonwellId writes: no writes leave the data unchanged, and the last write decides the COMMONWELL entry |
| CommonwellPatient.ApplyStoresKeepsPatientId | api/app/src/external/commonwell/patient.ts:43-58 | Writes that all carry one patient id keep an entry with that id |
| CommonwellPatient.CreatePersistsIds | api/app/src/external/commonwell/patient.ts:77-91 | Once registration returns an id, that id stays stored whatever happens next. A missing self link leaves it stored without a person and fails create. A found Person's id is stored next to it |
| CommonwellPatient.RegisteredIdSurvivesMissingRefLink | api/app/src/external/commonwell/patient.ts:388-398 | Registration answering id CW123 with no self link: create fails, CW123 is stored, and the error is captured |
| CommonwellPatient.UpdateKeepsPatientId | api/app/src/external/commonwell/patient.ts:118-173 | update never replaces an existing CommonWell patient id |
| CommonwellPatient.UpdateKeepsLola3PlusLink | api/app/src/external/commonwell/patient.ts:186-205 | With an enrolled Person whose link is at LOLA 3 or 4, update issues no addPatientLink at all |
| CommonwellPatient.Lola3StepsIssueNoLink | api/app/src/external/commonwell/patient.ts:121-222 | With an enrolled Person whose link is at LOLA 3 or 4, the update steps issue no addPatientLink |
| CommonwellPatient.Lola3AfterPatientUpdate | api/app/src/external/commonwell/patient.ts:121-222 | In that state the Person update is one updatePerson call that goes on, the link upgrade issues no addPatientLink, and neither does the whole event sequence up to autoUpgradeNetworkLinks |
| DocumentQuery.PartitionEntries | api/app/src/external/commonwell/document/document-query.ts:119-125 | An entry is a document if and only if it is a DocumentReference entry, and an error if and only if it is an OperationOutcome entry. All other entries are dropped, and every document is a DocumentReference entry. Order is stated by PartitionEntriesAppend |
| DocumentQuery.PartitionEntriesAppend | api/app/src/external/commonwell/document/document-query.ts:119-125 | Both filters distribute over concatenation of the response entries, so documents and errors keep response order |
| DocumentQuery.PartitionEntriesSingle | api/app/src/external/commonwell/document/document-query.ts:119-125 | One entry lands in documents if it is a DocumentReference, in errors if it is an OperationOutcome and not a DocumentReference, and nowhere otherwise |
| DocumentQuery.ToDocument | api/app/src/external/commonwell/document/document-query.ts:147-177 | A document is kept if and only if its size is not 0 and its master identifier value and location are truthy. Its id is the master identifier value, and location, size, mime type and raw entry are carried over |
| DocumentQuery.ValidDocuments | api/app/src/external/commonwell/document/document-query.ts:147-177 | Keeps a document for an entry if and only if the entry passes the per-entry rule. Every kept document comes from the input, every passing entry's document is kept, and there are at most as many as entries |
| DocumentQuery.ValidDocumentsAppend | api/app/src/external/commonwell/document/document-query.ts:147-177 | Validation distributes over concatenation, so kept documents stay in response order |
| DocumentQuery.ValidDocumentsSingle | api/app/src/external/commonwell/document/document-query.ts:147-177 | One entry yields its document if it passes, nothing otherwise |
| DocumentQuery.ZeroSizeWarnings | api/app/src/external/commonwell/document/document-query.ts:148-153 | Exactly the size-0 contents of the input are reported |
| DocumentQuery.ZeroSizeWarningsAppend | api/app/src/external/commonwell/document/document-query.ts:148-153 | Warnings distribute over concatenation, so they follow response order |
| DocumentQuery.ValidDocumentsAreValid | api/app/src/external/commonwell/document/document-query.ts:156-158 | A kept document has a non-zero size, a non-empty id and location, and a master identifier equal to its id |
| DocumentQuery.ZeroSizeIsDropped | api/app/src/external/commonwell/document/document-query.ts:148-154 | No size-0 reference is kept |
| DocumentQuery.InternalGetDocuments | api/app/src/external/commonwell/document/document-query.ts:92-180 | Without a COMMONWELL entry: no query and no documents. Otherwise it queries the stored patient id and rethrows a query failure. On success the documents are exactly the valid documents of the DocumentReference entries of the response, in response order; the errors are exactly its OperationOutcome entries, in order; and the zero-size warnings are exactly the size-0 contents of its references, in order |
| DocumentQuery.ProcessDocumentRules | api/app/src/external/commonwell/document/document-query.ts:213-279 | Per document: when not overriding, a stored document is skipped after one existence check, and override never checks. A document not skipped with a location is downloaded. A failed download rejects with its error. After a successful download the reference is upserted; the step returns that reference if the upsert succeeds and rejects with it otherwise. A document without a location returns nothing and downloads nothing. Progress is recorded exactly when the patient reloads |
| DocumentQuery.ProcessDocument | api/app/src/external/commonwell/document/document-query.ts:213-279 | The per-document step. It has no ensures of its own: ProcessDocumentRules carries its contract |
| DocumentQuery.SettleAll | api/app/src/external/commonwell/document/document-query.ts:212-281 | One settled outcome per document, each that document's own step |
| DocumentQuery.SettleOne | api/app/src/external/commonwell/document/document-query.ts:212-281 | Settling document k appends its value to the collected references, its failure to the rejections and its own captures to the captures. It raises the progress count by one exactly when its patient reloads |
| DocumentQuery.StepCaptures | api/app/src/external/commonwell/document/document-query.ts:250-278 | One document's captures: its rejection error, from the catch, then a failed reload, from the finally. Nothing else is captured |
| DocumentQuery.DocCaptures | api/app/src/external/commonwell/document/document-query.ts:212-281 | The captures of the batch, document by document. It has no ensures of its own: DocCapturesContents carries its contract |
| DocumentQuery.DocCapturesContents | api/app/src/external/commonwell/document/document-query.ts:250-278 | The document errors among the captures are exactly the rejections, in document order. There are as many failed reloads as documents whose patient did not reload. Nothing else is captured |
| DocumentQuery.DocCapturesFailed | api/app/src/external/commonwell/document/document-query.ts:250-258 | The document errors among the captures are exactly the rejections, in document order |
| DocumentQuery.DocCapturesReloads | api/app/src/external/commonwell/document/document-query.ts:262-278 | One failed-reload capture per document whose patient did not reload |
| DocumentQuery.DocCapturesLength | api/app/src/external/commonwell/document/document-query.ts:250-278 | The number of captures is the number of rejections plus the number of failed reloads |
| DocumentQuery.CollectAppend | api/app/src/external/commonwell/document/document-query.ts:283-285 | The result is collected in document order |
| DocumentQuery.Collect | api/app/src/external/commonwell/document/document-query.ts:283-285 | Never more references than settled outcomes. Order is stated by CollectAppend |
| DocumentQuery.Rejections | api/app/src/external/commonwell/document/document-query.ts:250-258 | An error is reported exactly when it rejected a document. Rejections plus returned references never exceed the number of documents |
| DocumentQuery.OneFailureCostsAtMostOne | api/app/src/external/commonwell/document/document-query.ts:250-285 | A failing document leaves every other document's value in the result, so it costs the result at most itself |
| DocumentQuery.DownloadDocsAndUpsertFHIR | api/app/src/external/commonwell/document/document-query.ts:182-288 | Returns exactly the fulfilled, defined values, in document order. Reports exactly the rejections. Its captures are those of each document in turn. Progress write i is (i+1, number of documents), with one write per document whose patient reloads, so completed never exceeds total |
| DocumentQuery.StoredDocumentsAreSkipped | api/app/src/external/commonwell/document/document-query.ts:218-221 | A re-run without override over stored documents downloads nothing and returns no references |
| DocumentQuery.QueryDocuments | api/app/src/external/commonwell/document/document-query.ts:37-90 | Once patient data is found, every path ends with exactly one completed write. On success there is one processing write per document whose patient reloads, and processing write i carries progress (i+1, number of documents). On success the captured errors are exactly the rejected documents, in order, plus one failed reload per document whose patient did not reload. Usage is reported once, only on non-sandbox success. The webhook is sent if and only if the call succeeds; on success it carries the DTOs of the collected references and the sandbox path sends the sandbox payload. A query failure is captured twice and rethrown. Without COMMONWELL data the run sends an empty list |
| DocumentQuery.ProcessFound | api/app/src/external/commonwell/document/document-query.ts:57-89 | The non-sandbox success path: it succeeds and reports usage once. The webhook carries the DTOs of the collected references. The captures are those of each document in turn: the document errors are exactly the rejections, in order, and there is one failed reload per document whose patient did not reload. The writes are the processing writes (i+1, number of documents), one per document whose patient reloads, then exactly one completed write |
| DocumentQuery.ProgressToWrites | api/app/src/external/commonwell/document/document-query.ts:266-273 | Each progress value becomes a processing write carrying it |
| DocumentQuery.ApplyWritesLast | api/app/src/external/commonwell/document/document-query.ts:81-89 | After a run's writes land, the stored status is the last one written, and the patient's identity is unchanged |
| DocumentQuery.NotProcessingAfterRun | api/app/src/external/commonwell/document/document-query.ts:81-89 | After a run ending with the completed write, areDocumentsProcessing answers false |
| DocumentDTO.ToDocumentDTO | api/app/src/routes/medical/dtos/documentDTO.ts:21-56 | A DTO exists if and only if the document has a truthy id, content, and a first content item with an attachment whose title and url are truthy. Its id is the decoded doc id and fileName/location are title/url. mimeType, size and indexed come from the first attachment; description and status come from the document |
| DocumentDTO.ToDTO | api/app/src/routes/medical/dtos/documentDTO.ts:18-61 | Undefined input yields an empty list; output is never longer than input |
| DocumentDTO.Project | api/app/src/routes/medical/dtos/documentDTO.ts:20-57 | Never more DTOs than documents. Order and contents are stated by ProjectAppend, ProjectSingle and ProjectContents |
| DocumentDTO.ProjectAppend | api/app/src/routes/medical/dtos/documentDTO.ts:20-57 | Projection distributes over concatenation, so output order follows input order |
| DocumentDTO.ProjectSingle | api/app/src/routes/medical/dtos/documentDTO.ts:20-57 | A single document yields its DTO if listable, nothing otherwise |
| DocumentDTO.ProjectContents | api/app/src/routes/medical/dtos/documentDTO.ts:20-57 | One DTO per listable document, each the projection of an input document |
| DocumentDTO.FirstContentOnly | api/app/src/routes/medical/dtos/documentDTO.ts:23-39 | Content items after the first never change the DTO |
| DocumentDTO.MultipleContentWarning | api/app/src/routes/medical/dtos/documentDTO.ts:25-32 | A warning, carrying the decoded id and the item count, is raised exactly for a document with an id and more than one content item |
| DocumentDTO.WarningDoesNotDrop | api/app/src/routes/medical/dtos/documentDTO.ts:25-39 | A warned document is still listed when its first item qualifies |
| DocumentStatus.AreDocumentsProcessing | api/app/src/command/medical/document/document-status.ts:3-13 | Fails exactly when no patient has (id, cxId). Otherwise true if and only if the stored status is processing; completed or absent gives false |
| DocumentStatus.ReadsLastStatusWrite | api/app/src/command/medical/document/document-status.ts:10-12 | After a status write the predicate reads that status. Writes to other patients do not change its answer |
| Patients.CommonwellEntry | api/app/src/external/commonwell/patient.ts:278-281 | The COMMONWELL entry exists exactly when external data is present and has that key |
| Util.Optional | api/app/src/shared/util.ts:108 | null and undefined become undefined; a present value is returned unchanged |
| Util.OptionalRoundTrip | api/app/src/shared/util.ts:108 | optional undoes lifting an optional value and is idempotent |
| Util.OneOf | api/app/src/shared/util.ts:114-115 | undefined if and only if every argument is null or undefined. Otherwise the result is the first present argument |
| Util.OneOfAppend | api/app/src/shared/util.ts:114-115 | Later arguments are consulted only when all earlier ones are missing |
| Util.IsTokenExpired | api/app/src/shared/util.ts:13-22 | As written: expired exactly when now in ms is at least expires_at*1000 + 600000 |
| Util.TokenExpiryMonotone | api/app/src/shared/util.ts:13-22 | Once expired, a token stays expired as time goes on |
| Util.TokenStillValidAfterExpiry | api/app/src/shared/util.ts:13-22 | As written, a token reads as valid for up to ten minutes after its expiry instant |
| Util.IsTokenExpiredEarly | api/app/src/shared/util.ts:13-22 | Corrected: expired exactly when now is at least ten minutes before the expiry instant |
| Util.TokenExpiredEarlyBeforeExpiry | api/app/src/shared/util.ts:13-22 | Corrected: expired from ten minutes before expiry onwards, and never valid past expiry. Monotone in time |
| Util.SleepRandomDelay | api/app/src/shared/util.ts:92-96 | For a draw in [0,1) and 0 < multiplierMin <= 0.5, the wait is at least floor(multiplierMin*max) and below max |
| Util.SleepRandomDefaultBounds | api/app/src/shared/util.ts:92-95 | With the default multiplier the wait is at least a tenth of max |
| Util.GetMinMaxItem | api/app/src/shared/util.ts:34-42 | For a non-empty array, min and max are members that bound every element. An empty array gives Infinity and -Infinity |
| Util.AddDataToObject | api/app/src/shared/util.ts:64-69 | Returns {key: value}, with exactly that key, if and only if value is truthy; otherwise undefined |
| Facility.MaxFacilityId | api/app/src/models/medical/facility.ts:42-46 | The max is over the same organization only: null if and only if it has no facility; otherwise a member that bounds all of the organization's ids |
| Facility.BeforeCreate | api/app/src/models/medical/facility.ts:41-52 | The id is the facility OID of the new number. A truthy max m over the organization gives m + 1, which is above every existing id of the organization; all zero or none gives OID_ID_START |
| Facility.FacilityOidSegments | api/app/src/models/medical/facility.ts:48-50 | The id splits into the root's segments, then the organizations node, the organizationId, the locations node and facId |
| Facility.FacilityOid | api/app/src/models/medical/facility.ts:47-51 | The facility OID format. It has no ensures of its own: FacilityOidSegments and FacilityIdIsEmbedded carry its contract |
| Facility.FacilityIdIsEmbedded | api/app/src/models/medical/facility.ts:47-51 | The stored facilityId is the number at the end of the id, and the organizationId is in its place |
| Facility.FirstAndSecondFacility | api/app/src/models/medical/facility.ts:42-47 | The first facility gets OID_ID_START and the second gets one more |
| PopulateFhir.PopulateFhirServer | api/app/src/command/medical/admin-populate-fhir.ts:15-71 | A missing tenant without createIfNotExists fails with BadRequest and no write. A tenant is created if and only if missing and createIfNotExists. Success is exactly when every step succeeds. The counts are the fulfilled and rejected patient upserts |
| PopulateFhir.UpsertPatients | api/app/src/command/medical/admin-populate-fhir.ts:41-53 | One FHIR upsert outcome per patient, in patient order, each the outcome of upserting that patient |
| PopulateFhir.CountOutcome | api/app/src/command/medical/admin-populate-fhir.ts:67-70 | A count never exceeds the number of patients, and equals it exactly when every upsert settled that way |
| PopulateFhir.CountsCoverEveryPatient | api/app/src/command/medical/admin-populate-fhir.ts:40-70 | patientsOK + patientsError equals the number of patients |
| PopulateFhir.DocumentQueries | api/app/src/command/medical/admin-populate-fhir.ts:55-65 | A document query is started exactly for the patients with a facility, on facilityIds[0] |
| PopulateFhir.DocumentQueriesAppend | api/app/src/command/medical/admin-populate-fhir.ts:55-65 | The queries of concatenated patient lists are those of the first list, then those of the second, so queries follow patient order |
| PopulateFhir.DocumentQueriesSingle | api/app/src/command/medical/admin-populate-fhir.ts:55-65 | One patient yields one query on its first facility if it has a facility, and none otherwise |
| PopulateFhir.CompletedActions | api/app/src/command/medical/admin-populate-fhir.ts:30-65 | Order: tenant creation only for a new tenant, then the organization, one upsert per patient in order, then the document queries |
| PopulateFhir.CompletedRunShape | api/app/src/command/medical/admin-populate-fhir.ts:30-65 | A completed run issues its actions in exactly that order |
| PopulateFhir.OrganizationFirst | api/app/src/command/medical/admin-populate-fhir.ts:35-41 | No patient is written unless the run completes, and the organization is written before it |
| Providers.Named | connect-widget/app/src/shared/localStorage/providers.ts:37-40 | Keeps exactly the providers whose name is a token |
| Providers.NamedAppend | connect-widget/app/src/shared/localStorage/providers.ts:37-40 | Filtering distributes over concatenation, so kept providers keep their list order |
| Providers.NamedSingle | connect-widget/app/src/shared/localStorage/providers.ts:37-40 | One provider is kept exactly when a token names it |
| Providers.NamedOrAll | connect-widget/app/src/shared/localStorage/providers.ts:37-46 | The named providers (exactly `Named`) when some provider is named, else the whole list, so it is never empty |
| Providers.GetValidProviders | connect-widget/app/src/shared/localStorage/providers.ts:35-50 | null if and only if the search is null or empty. Otherwise, when some default is named by a comma-split token, it returns exactly the named defaults in default order (`Named`); when none is, all defaults. Never empty |
| Providers.GetLocalStorageProviders | connect-widget/app/src/shared/localStorage/providers.ts:52-63 | The stored list if the key is present, else null |
| Providers.GetProviders | connect-widget/app/src/shared/localStorage/providers.ts:15-33 | Valid providers are returned, and stored only outside demo mode. With no search it returns the stored list if any, else the defaults, and storage is unchanged |
| Providers.SearchIsRemembered | connect-widget/app/src/shared/localStorage/providers.ts:15-33 | A later visit without a search sees the last non-demo selection |
| Providers.TokensAreNotTrimmed | connect-widget/app/src/shared/localStorage/providers.ts:37-46 | "fitbit, oura" selects only fitbit, an unknown name gives all defaults, and an empty search gives null |
| ActivityTypes.Label | api/app/src/mappings/garmin/activity-types.ts:108-209 | The mapping is total over the enumeration and every label is non-empty |
| ActivityTypes.ReadableShape | api/app/src/mappings/garmin/activity-types.ts:211-212 | The readable form has the label's length, is non-empty, upper-cases the first character and lower-cases the rest |
| ActivityTypes.Readable | api/app/src/mappings/garmin/activity-types.ts:211-212 | activityTypeReadable. It has no ensures of its own: ReadableShape and YogaReadable carry its contract |
| ActivityTypes.IrregularKeys | api/app/src/mappings/garmin/activity-types.ts:128-178 | YOGA29, MOUNTAINEERIN, PADDLING_V230 and ROAD_BIKING map as tabled |
| ActivityTypes.YogaReadable | api/app/src/mappings/garmin/activity-types.ts:141 | YOGA29 reads as "Yoga": the suffix of the key is not in the label, and only the first letter stays upper case |
| Strings.CapitalizeShape | api/app/src/mappings/garmin/activity-types.ts:211-212 | lodash capitalize keeps the length, upper-cases the first character, lower-cases the rest, and changes letter case only |
| Strings.Capitalize | api/app/src/mappings/garmin/activity-types.ts:211-212 | lodash capitalize. It has no ensures of its own: CapitalizeShape carries its contract |
| GoogleMappings.Readings | api/app/src/mappings/google/index.ts:26-30 | At most one reading per value entry |
| GoogleMappings.GetValuesIsAllReadings | api/app/src/mappings/google/index.ts:24-34 | The reduce yields every point's readings in point order, then value order |
| GoogleMappings.GetValues | api/app/src/mappings/google/index.ts:24-34 | getValues. It has no ensures of its own: GetValuesIsAllReadings, GetValuesMembership and GetValuesLength carry its contract |
| GoogleMappings.GetValuesMembership | api/app/src/mappings/google/index.ts:24-34 | A number is returned if and only if some value entry holds it under the key and it is not zero; zero and missing values are dropped |
| GoogleMappings.GetValuesLength | api/app/src/mappings/google/index.ts:25-30 | The output is no longer than the total number of value entries |
| GoogleMappings.DefaultKeyIsFpVal | api/app/src/mappings/google/index.ts:24 | The default key is fpVal |

## Left out

- Logging, `capture.message` notices and the extra context attached to `capture.error`: only the fact that an error is captured is modelled.
- The `setCommonwellId`, `getPatientData`, `getPatientOrFail`, `updateDocQuery`, `getMatchingStrongIds`, `findOrCreatePerson`, `autoUpgradeNetworkLinks` and `getIdTrailingSlash` helpers: they are not part of this model. Each appears as an oracle answer, or as its assumed effect (`Patients.SetCommonwellIds`, `Patients.UpdateDocQuery`).
- Failures of the `setCommonwellId` and `updateDocQuery` writes: writes are modelled as always succeeding. A failing progress or completed write is only captured in the code.
- The values of `LOLA.level_3`/`LOLA.level_4` and of the OID constants: these live outside the model. The LOLA levels are taken to print as "3" and "4", and the OID root, nodes and `OID_ID_START` are parameters (`Facility.OidConfig`).
- `autoUpgradeNetworkLinks` tolerating per-link failures happens inside that helper; the model sees only its overall answer.
- Concurrency: `Promise.allSettled` in both the document pipeline and `populateFhirServer` is a sequential fold, so interleavings of progress writes are not modelled.
- The un-awaited `processPatientDocumentRequest` and `queryDocumentsAcrossHIEs` calls: they are recorded as issued, and their outcome is not modelled. The returned counts of `populateFhirServer` do not depend on them.
- S3 streaming, `createS3FileName`, `getDocumentPrimaryId`, `toFHIRDocRef`, base64url decoding and `getFileName`: they are uninterpreted functions of `DocEnv`/`QueryEnv`. `fileExists` is the `isStored` predicate, with every error reading as "not stored".
- `codeableToDTO`: the DocumentReference type is passed through unchanged.
- Floating point: `SleepRandomDelay` uses exact reals, and Google values are reals. NaN, which is falsy in JavaScript, is not represented, so a NaN value would be kept where the code drops it.
- `Util.getAvgOfArr`, `kilojoulesToKilocalories`, `md5`, `curSecSinceEpoch`, `streamToString`, `sleep`, the Google `getSamples` and date formatting: floating point, crypto, clock and streams.
- `Util.GetMinMaxItem`: numbers are integers, not IEEE doubles.
- `Util.IsTokenExpired`: `expires_at` and `Date.now()` are integers, not IEEE doubles, so a fractional `expires_at` and rounding in `expires_at * 1000` are not modelled.
- `Providers.GetProviders`: JSON serialisation in local storage is taken to round-trip. Malformed stored JSON, which makes `JSON.parse` throw, is not modelled.
- `Strings.ToLower`/`Strings.Capitalize`: case mapping is ASCII only; the labels are ASCII.
- `PopulateFhir.PopulateFhirServer`: a failing `tenantExists` lookup is not modelled, and the lookup is taken as a plain answer.

## Findings

| source | as written | input that shows it | evidently intended | confidence | as-written member | corrected member |
|---|---|---|---|---|---|---|
| api/app/src/shared/util.ts:13-22 | The 600-second buffer is added to the remaining time, so a token reads as expired only ten minutes after `expires_at` | `expires_at = E`, `Date.now() = E*1000 + 599999`: still valid although expired | Treat the token as expired from ten minutes before `expires_at`, so it is refreshed early | medium, not executed | Util.TokenStillValidAfterExpiry | Util.TokenExpiredEarlyBeforeExpiry |
| api/app/src/external/commonwell/patient.ts:31-36 | `personId` is read from the COMMONWELL entry without checking that the entry exists | external data `{}`, or data holding only another source: TypeError | needs-review when there is no COMMONWELL entry | high, not executed | CommonwellPatient.GetLinkStatusThrowsWithoutCommonwellEntry | CommonwellPatient.LinkStatusOf |

=== FILE: activity_types.dfy ===
/**
 The Garmin activity-type table: the enumeration of activity types accepted
 from Garmin, the label each one maps to, and the readable (capitalized) form.
 */
module ActivityTypes {
  import Strings

  /** The members of the activity-type enumeration, in declaration order. */
  datatype ActivityType =
    | RUNNING
    | INDOOR_RUNNING
    | OBSTACLE_RUN
    | STREET_RUNNING
    | TRACK_RUNNING
    | TRAIL_RUNNING
    | TREADMILL_RUNNING
    | ULTRA_RUN
    | VIRTUAL_RUN
    | CYCLING
    | BMX
    | CYCLOCROSS
    | DOWNHILL_BIKING
    | E_BIKE_FITNESS
    | E_BIKE_MOUNTAIN
    | GRAVEL_CYCLING
    | INDOOR_CYCLING
    | MOUNTAIN_BIKING
    | RECUMBENT_CYCLING
    | ROAD_BIKING
    | TRACK_CYCLING
    | VIRTUAL_RIDE
    | FITNESS_EQUIPMENT
    | BOULDERING
    | ELLIPTICAL
    | INDOOR_CARDIO
    | HIIT
    | INDOOR_CLIMBING
    | INDOOR_ROWING
    | PILATES
    | STAIR_CLIMBING
    | STRENGTH_TRAINING
    | YOGA29
    | HIKING
    | SWIMMING
    | LAP_SWIMMING
    | OPEN_WATER_SWIMMING
    | WALKING
    | CASUAL_WALKING
    | SPEED_WALKING
    | TRANSITION_V2
    | BIKE_TO_RUN_TRANSITION_V2
    | RUN_TO_BIKE_TRANSITION_V2
    | SWIM_TO_BIKE_TRANSITION_V2
    | MOTORCYCLING_V2
    | ATV_V2
    | MOTOCROSS_V2
    | OTHER
    | ASSISTANCE
    | AUTO_RACING
    | BOATING_V2
    | BREATHWORK
    | DISC_GOLF
    | DRIVING_GENERAL
    | E_SPORT
    | FLOOR_CLIMBING
    | FLYING
    | GOLF
    | HANG_GLIDING
    | HORSEBACK_RIDING
    | HUNTING_FISHING
    | HUNTING_V2
    | FISHING_V2
    | INLINE_SKATING
    | KAYAKING_V2
    | KITEBOARDING_V2
    | MOUNTAINEERIN
    | OFFSHORE_GRINDING_V2
    | ONSHORE_GRINDING_V2
    | PADDLING_V230
    | RC_DRONE
    | ROCK_CLIMBING
    | ROWING_V2
    | SAILING_V2
    | SKY_DIVING
    | STAND_UP_PADDLEBOARDING
    | STOP_WATCH
    | SURFING_V2
    | TENNIS
    | RAFTING
    | WAKEBOARDING
    | WHITEWATER_RAFTING_KAYAKING
    | WINDSURFING_V2
    | WINGSUIT_FLYING
    | DIVING
    | APNEA_DIVING
    | APNEA_HUNTING
    | CCR_DIVING
    | GAUGE_DIVING
    | MULTI_GAS_DIVING
    | SINGLE_GAS_DIVING
    | WINTER_SPORTS
    | BACKCOUNTRY_SNOWBOARDING
    | BACKCOUNTRY_SKIING
    | CROSS_COUNTRY_SKIING_WS
    | RESORT_SKIING_SNOWBOARDING_WS
    | SKATE_SKIING_WS
    | SKATING_WS
    | SNOW_SHOE_WS
    | SNOWMOBILING_WS

  /** `activityTypeMapping`: the label of every activity type. */
  function Label(t: ActivityType): (text: string)
    ensures |text| > 0
  {
    match t
    case RUNNING => "RUNNING"
    case INDOOR_RUNNING => "INDOOR RUNNING"
    case OBSTACLE_RUN => "OBSTACLE RUNNING"
    case STREET_RUNNING => "STREET RUNNING"
    case TRACK_RUNNING => "TRACK RUNNING"
    case TRAIL_RUNNING => "TRAIL RUNNING"
    case TREADMILL_RUNNING => "TREADMILL RUNNING"
    case ULTRA_RUN => "ULTRA RUNNING"
    case VIRTUAL_RUN => "VIRTUAL RUNNING"
    case CYCLING => "CYCLING"
    case BMX => "BMX"
    case CYCLOCROSS => "CYCLOCROSS"
    case DOWNHILL_BIKING => "DOWNHILL BIKING"
    case E_BIKE_FITNESS => "EBIKING"
    case E_BIKE_MOUNTAIN => "EMOUNTAINBIKING"
    case GRAVEL_CYCLING => "GRAVEL/UNPAVED CYCLING"
    case INDOOR_CYCLING => "INDOOR CYCLING"
    case MOUNTAIN_BIKING => "MOUNTAIN BIKING"
    case RECUMBENT_CYCLING => "RECUMBENT CYCLING"
    case ROAD_BIKING => "ROAD CYCLING"
    case TRACK_CYCLING => "TRACK CYCLING"
    case VIRTUAL_RIDE => "VIRTUAL CYCLING"
    case FITNESS_EQUIPMENT => "GYM & FITNESS EQUIPMENT"
    case BOULDERING => "BOULDERING"
    case ELLIPTICAL => "ELLIPTICAL"
    case INDOOR_CARDIO => "CARDIO"
    case HIIT => "HIIT"
    case INDOOR_CLIMBING => "INDOOR CLIMBING"
    case INDOOR_ROWING => "INDOOR ROWING"
    case PILATES => "PILATES"
    case STAIR_CLIMBING => "STAIR STEPPER"
    case STRENGTH_TRAINING => "STRENGTH TRAINING"
    case YOGA29 => "YOGA"
    case HIKING => "HIKING"
    case SWIMMING => "SWIMMING"
    case LAP_SWIMMING => "POOL SWIMMING"
    case OPEN_WATER_SWIMMING => "OPEN WATER SWIMMING"
    case WALKING => "WALKING/INDOOR WALKING"
    case CASUAL_WALKING => "CASUAL WALKING"
    case SPEED_WALKING => "SPEED WALKING"
    case TRANSITION_V2 => "TRANSITION"
    case BIKE_TO_RUN_TRANSITION_V2 => "BIKE TO RUN TRANSITION"
    case RUN_TO_BIKE_TRANSITION_V2 => "RUN TO BIKE TRANSITION"
    case SWIM_TO_BIKE_TRANSITION_V2 => "SWIM TO BIKE TRANSITION"
    case MOTORCYCLING_V2 => "MOTORCYCLING"
    case ATV_V2 => "ATV"
    case MOTOCROSS_V2 => "MOTOCROSS"
    case OTHER => "OTHER"
    case ASSISTANCE => "ASSISTANCE"
    case AUTO_RACING => "AUTO RACING"
    case BOATING_V2 => "BOATING BOATING"
    case BREATHWORK => "BREATHWORK"
    case DISC_GOLF => "DISC GOLF"
    case DRIVING_GENERAL => "DRIVING"
    case E_SPORT => "ESPORTS"
    case FLOOR_CLIMBING => "FLOOR CLIMBING"
    case FLYING => "FLYING"
    case GOLF => "GOLF"
    case HANG_GLIDING => "HANG GLIDING"
    case HORSEBACK_RIDING => "HORSEBACK RIDING"
    case HUNTING_FISHING => "HUNTING/FISHING"
    case HUNTING_V2 => "HUNTING HUNTING"
    case FISHING_V2 => "FISHING FISHING"
    case INLINE_SKATING => "INLINE SKATING"
    case KAYAKING_V2 => "KAYAKING"
    case KITEBOARDING_V2 => "KITEBOARDING"
    case MOUNTAINEERIN => "MOUNTAINEERING"
    case OFFSHORE_GRINDING_V2 => "OFFSHORE GRINDING"
    case ONSHORE_GRINDING_V2 => "ONSHORE GRINDING"
    case PADDLING_V230 => "PADDLING"
    case RC_DRONE => "RC/DRONE"
    case ROCK_CLIMBING => "ROCK CLIMBING"
    case ROWING_V2 => "ROWING ROWING"
    case SAILING_V2 => "SAILING SAILING"
    case SKY_DIVING => "SKY DIVING"
    case STAND_UP_PADDLEBOARDING => "STAND UP PADDLEBOARDING"
    case STOP_WATCH => "STOPWATCH"
    case SURFING_V2 => "SURFING SURFING"
    case TENNIS => "TENNIS"
    case RAFTING => "RAFTING"
    case WAKEBOARDING => "WAKEBOARDING"
    case WHITEWATER_RAFTING_KAYAKING => "WHITEWATER KAYAKING/RAFTING"
    case WINDSURFING_V2 => "WIND SURFING"
    case WINGSUIT_FLYING => "WINGSUIT FLYING"
    case DIVING => "DIVING"
    case APNEA_DIVING => "APNEA"
    case APNEA_HUNTING => "APNEA HUNT"
    case CCR_DIVING => "CCR DIVE"
    case GAUGE_DIVING => "GAUGE DIVE"
    case MULTI_GAS_DIVING => "MULTI-GAS DIVE"
    case SINGLE_GAS_DIVING => "SINGLE-GAS DIVE"
    case WINTER_SPORTS => "WINTER SPORTS"
    case BACKCOUNTRY_SNOWBOARDING => "BACKCOUNTRY SNOWBOARDING"
    case BACKCOUNTRY_SKIING => "BACKCOUNTRY SKIING"
    case CROSS_COUNTRY_SKIING_WS => "CROSS COUNTRY CLASSIC SKIING"
    case RESORT_SKIING_SNOWBOARDING_WS => "RESORT SKIING/SNOWBOARDING"
    case SKATE_SKIING_WS => "CROSS COUNTRY SKATE SKIING"
    case SKATING_WS => "SKATING"
    case SNOW_SHOE_WS => "SNOWSHOEING"
    case SNOWMOBILING_WS => "SNOWMOBILING"
  }

  /** `activityTypeReadable`: lodash `capitalize` applied to the label. */
  function Readable(t: ActivityType): string
  {
    Strings.Capitalize(Label(t))
  }

  /**
   The readable form is never empty, has the label's length, starts with the
   label's first character in upper case, continues with the rest of the
   label in lower case, and differs from the label in letter case only.
   */
  lemma ReadableShape(t: ActivityType)
    ensures |Readable(t)| == |Label(t)| > 0
    ensures Readable(t)[0] == Strings.ToUpperChar(Strings.ToLowerChar(Label(t)[0]))
    ensures forall i :: 1 <= i < |Label(t)| ==> Readable(t)[i] == Strings.ToLowerChar(Label(t)[i])
    ensures Strings.ToLower(Readable(t)) == Strings.ToLower(Label(t))
  {
    var text := Label(t);
    Strings.CapitalizeShape(text);
  }

  /** Irregular keys map as tabled. */
  lemma IrregularKeys()
    ensures Label(YOGA29) == "YOGA"
    ensures Label(MOUNTAINEERIN) == "MOUNTAINEERING"
    ensures Label(PADDLING_V230) == "PADDLING"
    ensures Label(ROAD_BIKING) == "ROAD CYCLING"
  {
    assert Label(YOGA29) == "YOGA";
    assert Label(MOUNTAINEERIN) == "MOUNTAINEERING";
    assert Label(PADDLING_V230) == "PADDLING";
  }

  lemma CapitalizeYoga()
    ensures Strings.Capitalize("YOGA") == "Yoga"
  {
    var text := "YOGA";
    var r := Strings.Capitalize(text);
    Strings.CapitalizeShape(text);
    assert r[0] == 'Y';
    assert r[1] == 'o';
    assert r[2] == 'g';
    assert r[3] == 'a';
  }

  /** `YOGA29` reads as "Yoga": the key's suffix is dropped and only the first letter stays upper case. */
  lemma YogaReadable()
    ensures Readable(YOGA29) == "Yoga"
  {
    IrregularKeys();
    CapitalizeYoga();
  }
}

=== FILE: admin_populate_fhir.dfy ===
/**
 `populateFhirServer`: make sure the customer's FHIR tenant exists, upsert the
 organization and then every patient, and start a document query for each
 patient that has a facility. The answers of the database and of the FHIR
 server are the fields of `Env`; the run is the list of writes and queries
 issued, in order, and the counts returned.
 */
module PopulateFhir {
  import opened Wrappers
  import opened Patients

  datatype Env = Env(
    organizationFound: bool,
    tenantExists: bool,
    createTenantOk: bool,
    organizationUpsertOk: bool,
    patients: Option<seq<Patient>>,
    patientUpsertOk: Patient -> bool)

  datatype Action =
    | CreateTenant
    | UpsertOrganization
    | UpsertPatient(patientId: string)
    | QueryDocuments(patientId: string, facilityId: string)

  datatype PopulateError =
    | OrganizationNotFound
    /** `BadRequestError`: the tenant is missing and may not be created. */
    | TenantNotSetUp
    | TenantCreationFailed
    | OrganizationUpsertFailed
    | PatientsNotLoaded

  /** `PopulateFhirServerResponse`. */
  datatype Counts = Counts(patientsOK: nat, patientsError: nat)

  datatype Run = Run(actions: seq<Action>, result: Result<Counts, PopulateError>)

  /** The number of settled upserts with the given outcome. */
  function CountOutcome(patients: seq<Patient>, ok: Patient -> bool, outcome: bool): (n: nat)
    ensures n <= |patients|
    ensures n == |patients| <==> forall i :: 0 <= i < |patients| ==> ok(patients[i]) == outcome
  {
    if |patients| == 0 then 0
    else
      var rest := CountOutcome(patients[1..], ok, outcome);
      assert forall i :: 1 <= i < |patients| ==> patients[i] == patients[1..][i - 1];
      (if ok(patients[0]) == outcome then 1 else 0) + rest
  }

  /** Every settled upsert is either fulfilled or rejected. */
  lemma {:induction false} OutcomesPartition(patients: seq<Patient>, ok: Patient -> bool)
    ensures CountOutcome(patients, ok, true) + CountOutcome(patients, ok, false) == |patients|
  {
    if |patients| > 0 {
      OutcomesPartition(patients[1..], ok);
    }
  }

  /** One upsert per patient, in the order of the patient list. */
  function UpsertPatients(patients: seq<Patient>): (r: seq<Action>)
    ensures |r| == |patients|
    ensures forall i :: 0 <= i < |r| ==> r[i] == UpsertPatient(patients[i].id)
  {
    seq(|patients|, i requires 0 <= i < |patients| => UpsertPatient(patients[i].id))
  }

  /** A document query is started for a patient exactly when it has a facility. */
  predicate HasFacility(p: Patient) {
    |p.facilityIds| >= 1
  }

  /** The document queries started, one per patient with a facility, on its first facility. */
  function DocumentQueries(patients: seq<Patient>): (r: seq<Action>)
    ensures |r| <= |patients|
    ensures forall a :: a in r ==> a.QueryDocuments?
    ensures forall a :: a in r <==> exists p :: p in patients && HasFacility(p) && a == QueryDocuments(p.id, p.facilityIds[0])
  {
    if |patients| == 0 then []
    else
      var p := patients[0];
      var rest := DocumentQueries(patients[1..]);
      assert forall q :: q in patients <==> q == p || q in patients[1..];
      if HasFacility(p) then [QueryDocuments(p.id, p.facilityIds[0])] + rest else rest
  }

  /** The queries of concatenated patient lists follow the list order: those of `a`, then those of `b`. */
  lemma {:induction false} DocumentQueriesAppend(a: seq<Patient>, b: seq<Patient>)
    ensures DocumentQueries(a + b) == DocumentQueries(a) + DocumentQueries(b)
    decreases |a|
  {
    if |a| == 0 {
      assert a + b == b;
    } else {
      var p := a[0];
      var head := if HasFacility(p) then [QueryDocuments(p.id, p.facilityIds[0])] else [];
      assert (a + b)[0] == p;
      assert (a + b)[1..] == a[1..] + b;
      assert DocumentQueries(a) == head + DocumentQueries(a[1..]);
      assert DocumentQueries(a + b) == head + DocumentQueries(a[1..] + b);
      DocumentQueriesAppend(a[1..], b);
      assert head + (DocumentQueries(a[1..]) + DocumentQueries(b)) == (head + DocumentQueries(a[1..])) + DocumentQueries(b);
    }
  }

  /** One patient yields one query on its first facility if it has one, and none otherwise. */
  lemma DocumentQueriesSingle(p: Patient)
    ensures DocumentQueries([p]) == if HasFacility(p) then [QueryDocuments(p.id, p.facilityIds[0])] else []
  {
    assert [p][1..] == [];
  }

  /**
   The actions of a completed run: the tenant creation when the tenant is
   new, then the organization, then one upsert per patient, then the
   document queries.
   */
  function CompletedActions(tenantExists: bool, patients: seq<Patient>): (a: seq<Action>)
    ensures var k := if tenantExists then 0 else 1;
      && |a| == k + 1 + |patients| + |DocumentQueries(patients)|
      && (!tenantExists ==> a[0] == CreateTenant)
      && a[k] == UpsertOrganization
      && (forall i :: 0 <= i < |patients| ==> a[k + 1 + i] == UpsertPatient(patients[i].id))
      && a[k + 1 + |patients|..] == DocumentQueries(patients)
    ensures CreateTenant in a <==> !tenantExists
  {
    var org := (if !tenantExists then [CreateTenant] else []) + [UpsertOrganization];
    var upserts, queries := UpsertPatients(patients), DocumentQueries(patients);
    ConcatParts(org, upserts, queries);
    assert CreateTenant !in upserts && CreateTenant !in queries;
    assert (org + upserts + queries)[|org| - 1] == UpsertOrganization;
    assert !tenantExists ==> (org + upserts + queries)[0] == CreateTenant;
    org + upserts + queries
  }

  /**
   The run completes when the organization is found, the tenant exists or
   is created, the organization upsert succeeds and the patients load.
   */
  predicate Completes(env: Env, createIfNotExists: bool) {
    && env.organizationFound
    && (env.tenantExists || (createIfNotExists && env.createTenantOk))
    && env.organizationUpsertOk
    && env.patients.Some?
  }

  function PopulateFhirServer(env: Env, createIfNotExists: bool := false): (r: Run)
    ensures !env.organizationFound ==> r == Run([], Failure(OrganizationNotFound))
    ensures env.organizationFound && !env.tenantExists && !createIfNotExists ==> r == Run([], Failure(TenantNotSetUp))
    ensures CreateTenant in r.actions <==> env.organizationFound && !env.tenantExists && createIfNotExists
    ensures r.result.Success? <==> Completes(env, createIfNotExists)
    ensures r.result.Success? ==>
      && r.result.value.patientsOK == CountOutcome(env.patients.value, env.patientUpsertOk, true)
      && r.result.value.patientsError == CountOutcome(env.patients.value, env.patientUpsertOk, false)
  {
    if !env.organizationFound then Run([], Failure(OrganizationNotFound))
    else if !env.tenantExists && !createIfNotExists then Run([], Failure(TenantNotSetUp))
    else
      var tenant := if !env.tenantExists then [CreateTenant] else [];
      if !env.tenantExists && !env.createTenantOk then Run(tenant, Failure(TenantCreationFailed))
      else
        var org := tenant + [UpsertOrganization];
        if !env.organizationUpsertOk then Run(org, Failure(OrganizationUpsertFailed))
        else if env.patients.None? then Run(org, Failure(PatientsNotLoaded))
        else
          var patients := env.patients.value;
          Run(CompletedActions(env.tenantExists, patients), Success(Counts(
            CountOutcome(patients, env.patientUpsertOk, true),
            CountOutcome(patients, env.patientUpsertOk, false))))
  }

  /** When the run completes, every patient is counted once, as OK or as an error. */
  lemma CountsCoverEveryPatient(env: Env, createIfNotExists: bool)
    requires Completes(env, createIfNotExists)
    ensures var c := PopulateFhirServer(env, createIfNotExists).result.value;
      c.patientsOK + c.patientsError == |env.patients.value|
  {
    OutcomesPartition(env.patients.value, env.patientUpsertOk);
  }

  /**
   The actions of a completed run: the tenant creation if needed, then the
   organization, then one upsert per patient, then the document queries.
   */
  lemma CompletedRunShape(env: Env, createIfNotExists: bool)
    requires Completes(env, createIfNotExists)
    ensures var r := PopulateFhirServer(env, createIfNotExists);
      var k := if env.tenantExists then 0 else 1;
      && |r.actions| >= k + 1 + |env.patients.value|
      && r.actions[k] == UpsertOrganization
      && (forall i :: 0 <= i < |env.patients.value| ==> r.actions[k + 1 + i] == UpsertPatient(env.patients.value[i].id))
      && r.actions[k + 1 + |env.patients.value|..] == DocumentQueries(env.patients.value)
  {
    assert PopulateFhirServer(env, createIfNotExists).actions == CompletedActions(env.tenantExists, env.patients.value);
  }

  /** Positions in a three-part concatenation. */
  lemma ConcatParts<T>(a: seq<T>, b: seq<T>, c: seq<T>)
    ensures forall i :: 0 <= i < |b| ==> (a + b + c)[|a| + i] == b[i]
    ensures (a + b + c)[|a| + |b|..] == c
  {
  }

  /** No patient is written before the organization. */
  lemma OrganizationFirst(env: Env, createIfNotExists: bool, i: nat)
    requires i < |PopulateFhirServer(env, createIfNotExists).actions|
    requires PopulateFhirServer(env, createIfNotExists).actions[i].UpsertPatient?
    ensures PopulateFhirServer(env, createIfNotExists).result.Success?
    ensures exists j :: 0 <= j < i && PopulateFhirServer(env, createIfNotExists).actions[j] == UpsertOrganization
  {
    var r := PopulateFhirServer(env, createIfNotExists);
    var tenant := if !env.tenantExists then [CreateTenant] else [];
    var org := tenant + [UpsertOrganization];
    if r.result.Success? {
      assert r.actions[|org| - 1] == UpsertOrganization;
    }
  }
}

=== FILE: document_dto.dfy ===
/**
 `toDTO` of the document routes: the projection of FHIR DocumentReference
 resources onto the document DTO returned to customers.
 */
module DocumentDTO {
  import opened Wrappers

  datatype Attachment = Attachment(
    title: Option<string>,
    url: Option<string>,
    creation: Option<string>,
    contentType: Option<string>,
    size: Option<int>)

  /** One item of a DocumentReference's `content` array. */
  datatype Content = Content(attachment: Option<Attachment>)

  datatype CodeableConcept = CodeableConcept(text: Option<string>)

  /** A FHIR DocumentReference, limited to the fields `toDTO` reads. */
  datatype DocumentReference = DocumentReference(
    id: Option<string>,
    content: Option<seq<Content>>,
    description: Option<string>,
    status: Option<string>,
    docType: Option<CodeableConcept>)

  datatype DocumentReferenceDTO = DocumentReferenceDTO(
    id: string,
    fileName: string,
    location: string,
    description: Option<string>,
    status: Option<string>,
    indexed: Option<string>,
    mimeType: Option<string>,
    size: Option<int>,
    docType: Option<CodeableConcept>)

  /**
   A document is listed when it has a truthy id, a content array, and a first
   content item whose attachment has a truthy title and url.
   */
  predicate Listable(doc: DocumentReference) {
    && Truthy(doc.id)
    && doc.content.Some?
    && |doc.content.value| > 0
    && doc.content.value[0].attachment.Some?
    && Truthy(doc.content.value[0].attachment.value.title)
    && Truthy(doc.content.value[0].attachment.value.url)
  }

  /**
   The body of the `flatMap` in `toDTO` for one document; `decode` is
   base64url decoding of the document id.
   */
  function ToDocumentDTO(doc: DocumentReference, decode: string -> string): (r: Option<DocumentReferenceDTO>)
    ensures r.Some? <==> Listable(doc)
    ensures r.Some? ==>
      var att := doc.content.value[0].attachment.value;
      && r.value.id == decode(doc.id.value)
      && r.value.fileName == att.title.value
      && r.value.location == att.url.value
      && r.value.mimeType == att.contentType
      && r.value.size == att.size
      && r.value.indexed == att.creation
      && r.value.description == doc.description
      && r.value.status == doc.status
  {
    if Truthy(doc.id) && doc.content.Some? then
      var items := doc.content.value;
      if |items| > 0 && items[0].attachment.Some?
        && Truthy(items[0].attachment.value.title) && Truthy(items[0].attachment.value.url)
      then
        var att := items[0].attachment.value;
        Some(DocumentReferenceDTO(decode(doc.id.value), att.title.value, att.url.value,
          doc.description, doc.status, att.creation, att.contentType, att.size, doc.docType))
      else None
    else None
  }

  /** What one document contributes to the `flatMap`: its DTO, or nothing. */
  function Contribution(doc: DocumentReference, decode: string -> string): seq<DocumentReferenceDTO>
  {
    match ToDocumentDTO(doc, decode)
    case Some(dto) => [dto]
    case None => []
  }

  /** The `flatMap` over a present array of documents. */
  function Project(docs: seq<DocumentReference>, decode: string -> string): (r: seq<DocumentReferenceDTO>)
    ensures |r| <= |docs|
  {
    if |docs| == 0 then [] else Contribution(docs[0], decode) + Project(docs[1..], decode)
  }

  /** `toDTO`: an undefined input yields no DTO. */
  function ToDTO(docs: Option<seq<DocumentReference>>, decode: string -> string): (r: seq<DocumentReferenceDTO>)
    ensures docs.None? ==> r == []
    ensures docs.Some? ==> |r| <= |docs.value|
  {
    match docs
    case None => []
    case Some(ds) => Project(ds, decode)
  }

  /** Projection distributes over concatenation: output order follows input order. */
  lemma {:induction false} ProjectAppend(a: seq<DocumentReference>, b: seq<DocumentReference>, decode: string -> string)
    ensures Project(a + b, decode) == Project(a, decode) + Project(b, decode)
  {
    if |a| > 0 {
      assert (a + b)[0] == a[0];
      assert (a + b)[1..] == a[1..] + b;
      ProjectAppend(a[1..], b, decode);
      var h := Contribution(a[0], decode);
      assert Project(a + b, decode) == h + Project(a[1..] + b, decode);
    } else {
      assert a + b == b;
    }
  }

  /** One document yields its DTO when listable, and nothing otherwise. */
  lemma ProjectSingle(doc: DocumentReference, decode: string -> string)
    ensures Listable(doc) ==> Project([doc], decode) == [ToDocumentDTO(doc, decode).value]
    ensures !Listable(doc) ==> Project([doc], decode) == []
  {
    assert [doc][1..] == [];
  }

  /** The number of listable documents. */
  function CountListable(docs: seq<DocumentReference>): nat
  {
    if |docs| == 0 then 0 else (if Listable(docs[0]) then 1 else 0) + CountListable(docs[1..])
  }

  /** Exactly one DTO per listable document, each one the projection of some input document. */
  lemma {:induction false} ProjectContents(docs: seq<DocumentReference>, decode: string -> string)
    ensures |Project(docs, decode)| == CountListable(docs)
    ensures forall k :: 0 <= k < |Project(docs, decode)| ==>
      exists j :: 0 <= j < |docs| && ToDocumentDTO(docs[j], decode) == Some(Project(docs, decode)[k])
  {
    if |docs| > 0 {
      ProjectContents(docs[1..], decode);
      var r := Project(docs, decode);
      var rest := Project(docs[1..], decode);
      forall k | 0 <= k < |r|
        ensures exists j :: 0 <= j < |docs| && ToDocumentDTO(docs[j], decode) == Some(r[k])
      {
        if Listable(docs[0]) {
          if k == 0 {
            assert ToDocumentDTO(docs[0], decode) == Some(r[k]);
          } else {
            assert r[k] == rest[k - 1];
            var j :| 0 <= j < |docs[1..]| && ToDocumentDTO(docs[1..][j], decode) == Some(rest[k - 1]);
            assert docs[j + 1] == docs[1..][j];
          }
        } else {
          assert r[k] == rest[k];
          var j :| 0 <= j < |docs[1..]| && ToDocumentDTO(docs[1..][j], decode) == Some(rest[k]);
          assert docs[j + 1] == docs[1..][j];
        }
      }
    }
  }

  /** Only the first content item is read: items after it change no DTO. */
  lemma FirstContentOnly(doc: DocumentReference, first: Content, more: seq<Content>, decode: string -> string)
    requires doc.content == Some([first] + more)
    ensures ToDocumentDTO(doc, decode) == ToDocumentDTO(doc.(content := Some([first])), decode)
  {
  }

  /**
   The warning `toDTO` raises for a document with an id, a content array and
   more than one content item: its decoded id and the number of items.
   */
  function MultipleContentWarning(doc: DocumentReference, decode: string -> string): (w: Option<(string, nat)>)
    ensures w.Some? <==> Truthy(doc.id) && doc.content.Some? && |doc.content.value| > 1
    ensures w.Some? ==> w.value == (decode(doc.id.value), |doc.content.value|)
  {
    if Truthy(doc.id) && doc.content.Some? && |doc.content.value| > 1 then
      Some((decode(doc.id.value), |doc.content.value|))
    else None
  }

  /** A warned document is still listed when its first content item qualifies. */
  lemma WarningDoesNotDrop(doc: DocumentReference, decode: string -> string)
    requires MultipleContentWarning(doc, decode).Some?
    requires doc.content.value[0].attachment.Some?
    requires Truthy(doc.content.value[0].attachment.value.title)
    requires Truthy(doc.content.value[0].attachment.value.url)
    ensures ToDocumentDTO(doc, decode).Some?
  {
  }
}

=== FILE: document_query.dfy ===
/**
 The CommonWell document query: query the network for a patient's document
 references, keep the valid ones, download and store each document unless it
 is already stored, upsert a FHIR DocumentReference for it, track progress on
 the patient's query status, and always finish with the status "completed".

 The per-document work runs under `Promise.allSettled`; every document's step
 is independent of the others, so it is modelled as a sequential fold.
 Remote calls and stores are oracle fields of `DocEnv` and `QueryEnv`.
 */
module DocumentQuery {
  import opened Wrappers
  import opened Patients
  import DocumentDTO
  import DocumentStatus
  import opened Remote

  type FhirDocRef = DocumentDTO.DocumentReference

  /** FHIR resource types of the entries of a query response. */
  const DocumentReferenceResourceType: string := "DocumentReference"
  const OperationOutcomeResourceType: string := "OperationOutcome"

  datatype Identifier = Identifier(value: Option<string>)

  /** The `content` of one entry of a query response, limited to the fields read here. */
  datatype EntryContent = EntryContent(
    resourceType: Option<string>,
    size: Option<int>,
    masterIdentifier: Option<Identifier>,
    location: Option<string>,
    mimeType: Option<string>,
    description: Option<string>)

  datatype QueryEntry = QueryEntry(content: Option<EntryContent>)

  /** A validated document reference, keyed by its master identifier. */
  datatype Document = Document(
    id: string,
    location: string,
    mimeType: Option<string>,
    size: Option<int>,
    raw: QueryEntry)

  predicate IsDocumentReference(e: QueryEntry) {
    e.content.Some? && e.content.value.resourceType == Some(DocumentReferenceResourceType)
  }

  predicate IsOperationOutcome(e: QueryEntry) {
    e.content.Some? && e.content.value.resourceType == Some(OperationOutcomeResourceType)
  }

  /** Entries sorted into document references and operation outcomes; others are ignored. */
  datatype Partition = Partition(docs: seq<QueryEntry>, errors: seq<QueryEntry>)

  /** The loop over `queryResponse.entry` that sorts entries by resource type. */
  function PartitionEntries(entries: seq<QueryEntry>): (r: Partition)
    ensures forall e :: e in r.docs <==> e in entries && IsDocumentReference(e)
    ensures forall e :: e in r.errors <==> e in entries && IsOperationOutcome(e)
    ensures |r.docs| + |r.errors| <= |entries|
    ensures forall i :: 0 <= i < |r.docs| ==> IsDocumentReference(r.docs[i])
  {
    if |entries| == 0 then Partition([], [])
    else
      var rest := PartitionEntries(entries[1..]);
      var e := entries[0];
      assert forall x :: x in entries <==> x == e || x in entries[1..];
      if IsDocumentReference(e) then Partition([e] + rest.docs, rest.errors)
      else if IsOperationOutcome(e) then Partition(rest.docs, [e] + rest.errors)
      else rest
  }

  /**
   Partitioning keeps response order and repetitions: concatenated responses
   give concatenated document and error lists.
   */
  lemma {:induction false} PartitionEntriesAppend(a: seq<QueryEntry>, b: seq<QueryEntry>)
    ensures PartitionEntries(a + b).docs == PartitionEntries(a).docs + PartitionEntries(b).docs
    ensures PartitionEntries(a + b).errors == PartitionEntries(a).errors + PartitionEntries(b).errors
    decreases |a|
  {
    if |a| == 0 {
      assert a + b == b;
    } else {
      var tail := a[1..];
      SplitFirst(a, b);
      PartitionEntriesCons(a[0], tail);
      PartitionEntriesCons(a[0], tail + b);
      PartitionEntriesAppend(tail, b);
      var pa, pt, pb, ptb := PartitionEntries([a[0]]), PartitionEntries(tail), PartitionEntries(b), PartitionEntries(tail + b);
      Regroup(PartitionEntries(a + b).docs, ptb.docs, pa.docs, pt.docs, pb.docs);
      Regroup(PartitionEntries(a + b).errors, ptb.errors, pa.errors, pt.errors, pb.errors);
    }
  }

  /** Partitioning one entry followed by more puts that entry's part first. */
  lemma PartitionEntriesCons(e: QueryEntry, rest: seq<QueryEntry>)
    ensures PartitionEntries([e] + rest).docs == PartitionEntries([e]).docs + PartitionEntries(rest).docs
    ensures PartitionEntries([e] + rest).errors == PartitionEntries([e]).errors + PartitionEntries(rest).errors
  {
    var es := [e] + rest;
    assert es[0] == e;
    assert es[1..] == rest;
    var pr := PartitionEntries(rest);
    var pe := PartitionEntries([e]);
    assert [e][1..] == [];
    assert PartitionEntries([e][1..]) == Partition([], []);
    if IsDocumentReference(e) {
      assert pe == Partition([e], []);
      assert PartitionEntries(es) == Partition([e] + pr.docs, pr.errors);
    } else if IsOperationOutcome(e) {
      assert pe == Partition([], [e]);
      assert PartitionEntries(es) == Partition(pr.docs, [e] + pr.errors);
    } else {
      assert pe == Partition([], []);
      assert PartitionEntries(es) == pr;
    }
  }

  /** One entry lands in the documents, in the errors, or nowhere, by its resource type. */
  lemma PartitionEntriesSingle(e: QueryEntry)
    ensures PartitionEntries([e]).docs == if IsDocumentReference(e) then [e] else []
    ensures PartitionEntries([e]).errors == if !IsDocumentReference(e) && IsOperationOutcome(e) then [e] else []
  {
    assert [e][1..] == [];
  }

  /**
   The body of the `flatMap` over document references: drop size-0 documents,
   keep those with a truthy master identifier value and location.
   */
  function ToDocument(e: QueryEntry): (r: Option<Document>)
    requires e.content.Some?
    ensures r.Some? <==>
      && e.content.value.size != Some(0)
      && e.content.value.masterIdentifier.Some?
      && Truthy(e.content.value.masterIdentifier.value.value)
      && Truthy(e.content.value.location)
    ensures r.Some? ==>
      && r.value.id == e.content.value.masterIdentifier.value.value.value
      && r.value.location == e.content.value.location.value
      && r.value.size == e.content.value.size
      && r.value.mimeType == e.content.value.mimeType
      && r.value.raw == e
  {
    var c := e.content.value;
    if c.size == Some(0) then None
    else if c.masterIdentifier.Some? && Truthy(c.masterIdentifier.value.value) && Truthy(c.location) then
      Some(Document(c.masterIdentifier.value.value.value, c.location.value, c.mimeType, c.size, e))
    else None
  }

  /** All document references carry a content. */
  predicate AllHaveContent(entries: seq<QueryEntry>) {
    forall i :: 0 <= i < |entries| ==> entries[i].content.Some?
  }

  /** The validated documents, in response order. */
  function ValidDocuments(entries: seq<QueryEntry>): (r: seq<Document>)
    requires AllHaveContent(entries)
    ensures |r| <= |entries|
    ensures forall d :: d in r ==> d.raw in entries && ToDocument(d.raw) == Some(d)
    ensures forall i :: 0 <= i < |entries| && ToDocument(entries[i]).Some? ==> ToDocument(entries[i]).value in r
  {
    if |entries| == 0 then []
    else
      var head := match ToDocument(entries[0]) case Some(d) => [d] case None => [];
      var rest := ValidDocuments(entries[1..]);
      assert forall i :: 1 <= i < |entries| ==> entries[i] == entries[1..][i - 1];
      head + rest
  }

  /** Validation keeps response order: it maps concatenated responses to concatenated results. */
  lemma {:induction false} ValidDocumentsAppend(a: seq<QueryEntry>, b: seq<QueryEntry>)
    requires AllHaveContent(a) && AllHaveContent(b)
    ensures AllHaveContent(a + b)
    ensures ValidDocuments(a + b) == ValidDocuments(a) + ValidDocuments(b)
    decreases |a|
  {
    AllHaveContentSplit(a, b);
    if |a| == 0 {
      assert a + b == b;
    } else {
      var tail := a[1..];
      SplitFirst(a, b);
      AllHaveContentSplit([a[0]], tail);
      AllHaveContentSplit(tail, b);
      ValidDocumentsCons(a[0], tail);
      ValidDocumentsCons(a[0], tail + b);
      ValidDocumentsAppend(tail, b);
      Regroup(ValidDocuments(a + b), ValidDocuments(tail + b),
        ValidDocuments([a[0]]), ValidDocuments(tail), ValidDocuments(b));
    }
  }

  /** A non-empty sequence is its first element followed by the rest. */
  lemma SplitFirst<T>(a: seq<T>, b: seq<T>)
    requires |a| > 0
    ensures a == [a[0]] + a[1..]
    ensures a + b == [a[0]] + (a[1..] + b)
  {
  }

  /** Re-associates a sequence built as a head before a concatenation. */
  lemma Regroup<T>(x: seq<T>, y: seq<T>, h: seq<T>, t: seq<T>, c: seq<T>)
    requires x == h + y && y == t + c
    ensures x == (h + t) + c
  {
  }

  /** Concatenated entries all carry a content exactly when both parts do. */
  lemma AllHaveContentSplit(a: seq<QueryEntry>, b: seq<QueryEntry>)
    ensures AllHaveContent(a + b) <==> AllHaveContent(a) && AllHaveContent(b)
  {
    assert forall i :: 0 <= i < |a| ==> (a + b)[i] == a[i];
    assert forall i :: 0 <= i < |b| ==> (a + b)[|a| + i] == b[i];
  }

  /** Validation of one entry followed by more is that entry's result, then the rest's. */
  lemma ValidDocumentsCons(e: QueryEntry, rest: seq<QueryEntry>)
    requires e.content.Some? && AllHaveContent(rest)
    ensures AllHaveContent([e] + rest)
    ensures ValidDocuments([e] + rest) == ValidDocuments([e]) + ValidDocuments(rest)
  {
    AllHaveContentSplit([e], rest);
    assert ([e] + rest)[0] == e;
    assert ([e] + rest)[1..] == rest;
    assert [e][1..] == [];
  }

  /** One entry yields its document when it passes and nothing otherwise. */
  lemma ValidDocumentsSingle(e: QueryEntry)
    requires e.content.Some?
    ensures ValidDocuments([e]) == match ToDocument(e) case Some(d) => [d] case None => []
  {
    assert [e][1..] == [];
  }

  /** The contents of the size-0 documents, each reported as a warning. */
  function ZeroSizeWarnings(entries: seq<QueryEntry>): (r: seq<EntryContent>)
    requires AllHaveContent(entries)
    ensures forall c :: c in r ==> c.size == Some(0) && exists e :: e in entries && e.content == Some(c)
    ensures forall i :: 0 <= i < |entries| && entries[i].content.value.size == Some(0) ==> entries[i].content.value in r
  {
    if |entries| == 0 then []
    else
      var head := if entries[0].content.value.size == Some(0) then [entries[0].content.value] else [];
      var rest := ZeroSizeWarnings(entries[1..]);
      assert forall i :: 1 <= i < |entries| ==> entries[i] == entries[1..][i - 1];
      head + rest
  }

  /** Warnings keep response order: concatenated responses give concatenated warnings. */
  lemma {:induction false} ZeroSizeWarningsAppend(a: seq<QueryEntry>, b: seq<QueryEntry>)
    requires AllHaveContent(a) && AllHaveContent(b)
    ensures AllHaveContent(a + b)
    ensures ZeroSizeWarnings(a + b) == ZeroSizeWarnings(a) + ZeroSizeWarnings(b)
    decreases |a|
  {
    AllHaveContentSplit(a, b);
    if |a| == 0 {
      assert a + b == b;
    } else {
      var tail := a[1..];
      SplitFirst(a, b);
      AllHaveContentSplit([a[0]], tail);
      AllHaveContentSplit(tail, b);
      ZeroSizeWarningsCons(a[0], tail);
      ZeroSizeWarningsCons(a[0], tail + b);
      ZeroSizeWarningsAppend(tail, b);
      Regroup(ZeroSizeWarnings(a + b), ZeroSizeWarnings(tail + b),
        ZeroSizeWarnings([a[0]]), ZeroSizeWarnings(tail), ZeroSizeWarnings(b));
    }
  }

  /** The warnings of one entry followed by more are that entry's, then the rest's. */
  lemma ZeroSizeWarningsCons(e: QueryEntry, rest: seq<QueryEntry>)
    requires e.content.Some? && AllHaveContent(rest)
    ensures AllHaveContent([e] + rest)
    ensures ZeroSizeWarnings([e] + rest) == ZeroSizeWarnings([e]) + ZeroSizeWarnings(rest)
  {
    AllHaveContentSplit([e], rest);
    assert ([e] + rest)[0] == e;
    assert ([e] + rest)[1..] == rest;
    assert [e][1..] == [];
  }

  /** Every kept document has a non-zero size, an id equal to its master identifier, and a location. */
  lemma ValidDocumentsAreValid(entries: seq<QueryEntry>, d: Document)
    requires AllHaveContent(entries)
    requires d in ValidDocuments(entries)
    ensures d.size != Some(0) && d.id != "" && d.location != ""
    ensures d.raw.content.value.masterIdentifier == Some(Identifier(Some(d.id)))
  {
  }

  /** A size-0 document reference is never kept, whatever its other fields. */
  lemma ZeroSizeIsDropped(entries: seq<QueryEntry>)
    requires AllHaveContent(entries)
    ensures forall d :: d in ValidDocuments(entries) ==> d.raw.content.value.size != Some(0)
  {
  }

  /** What the document query found: documents, operation outcomes, size-0 warnings. */
  datatype Fetched = Fetched(documents: seq<Document>, outcomes: seq<QueryEntry>, zeroSize: seq<EntryContent>)

  /** `internalGetDocuments`: the patient id queried (if any), and what came back. */
  datatype GetDocumentsRun = GetDocumentsRun(queried: Option<string>, result: Result<Fetched, NetError>)

  /**
   `internalGetDocuments`: no COMMONWELL data means no documents and no query;
   a failing query is rethrown; otherwise the response is partitioned and the
   document references validated.
   */
  function InternalGetDocuments(
    externalData: Option<ExternalData>,
    query: string -> Result<seq<QueryEntry>, NetError>): (r: GetDocumentsRun)
    ensures CommonwellEntry(externalData).None? ==> r == GetDocumentsRun(None, Success(Fetched([], [], [])))
    ensures CommonwellEntry(externalData).Some? ==> r.queried == Some(CommonwellEntry(externalData).value.patientId)
    ensures r.queried.Some? && query(r.queried.value).Failure? ==> r.result == Failure(query(r.queried.value).error)
    ensures r.queried.Some? && query(r.queried.value).Success? ==>
      r.result.Success? &&
      (forall d :: d in r.result.value.documents ==>
        d.raw in query(r.queried.value).value && IsDocumentReference(d.raw) && ToDocument(d.raw) == Some(d)) &&
      (forall e :: e in r.result.value.outcomes <==> e in query(r.queried.value).value && IsOperationOutcome(e))
    ensures r.queried.Some? && query(r.queried.value).Success? ==>
      var entries := query(r.queried.value).value;
      && (forall e :: e in entries && IsDocumentReference(e) && ToDocument(e).Some? ==>
            ToDocument(e).value in r.result.value.documents)
      && (forall c :: c in r.result.value.zeroSize ==>
            c.size == Some(0) && exists e :: e in entries && IsDocumentReference(e) && e.content == Some(c))
      && (forall e :: e in entries && IsDocumentReference(e) && e.content.value.size == Some(0) ==>
            e.content.value in r.result.value.zeroSize)
    ensures r.queried.Some? && query(r.queried.value).Success? ==>
      var parts := PartitionEntries(query(r.queried.value).value);
      && r.result.Success?
      && AllHaveContent(parts.docs)
      && r.result.value.documents == ValidDocuments(parts.docs)
      && r.result.value.zeroSize == ZeroSizeWarnings(parts.docs)
      && r.result.value.outcomes == parts.errors
  {
    match CommonwellEntry(externalData)
    case None => GetDocumentsRun(None, Success(Fetched([], [], [])))
    case Some(cw) =>
      match query(cw.patientId)
      case Failure(e) => GetDocumentsRun(Some(cw.patientId), Failure(e))
      case Success(entries) =>
        var parts := PartitionEntries(entries);
        assert AllHaveContent(parts.docs) by {
          forall i | 0 <= i < |parts.docs| ensures parts.docs[i].content.Some? {
            assert parts.docs[i] in parts.docs;
          }
        }
        var fetched := Fetched(ValidDocuments(parts.docs), parts.errors, ZeroSizeWarnings(parts.docs));
        assert forall e :: e in entries && IsDocumentReference(e) ==> exists i :: 0 <= i < |parts.docs| && parts.docs[i] == e by {
          forall e | e in entries && IsDocumentReference(e)
            ensures exists i :: 0 <= i < |parts.docs| && parts.docs[i] == e
          {
            assert e in parts.docs;
          }
        }
        GetDocumentsRun(Some(cw.patientId), Success(fetched))
  }

  /** The location and key S3 reports for an uploaded document. */
  datatype Upload = Upload(location: string, key: string)

  /**
   The collaborators of the per-document step: `getDocumentPrimaryId`,
   `createS3FileName`, `fileExists` (errors read as "missing"), the download
   streamed into the S3 upload, `toFHIRDocRef`, the FHIR upsert (true when
   it succeeds), and the `getPatientOrFail` of the progress update.
   */
  datatype DocEnv = DocEnv(
    primaryId: Document -> string,
    fileName: (string, string) -> string,
    isStored: string -> bool,
    download: (Document, string) -> Result<Upload, NetError>,
    toFhir: (Document, string) -> FhirDocRef,
    upsert: FhirDocRef -> bool,
    reload: Document -> bool)

  /** The remote and storage calls one document's step issues. */
  datatype DocCall = ExistsCheck(key: string) | Download(key: string) | Upsert(docRef: FhirDocRef)

  datatype DocError = DownloadFailed(cause: NetError) | UpsertFailed(docRef: FhirDocRef)

  /** How one document's promise settled. */
  datatype Settled = Fulfilled(value: Option<FhirDocRef>) | Rejected(error: DocError)

  /** One document's step: calls issued, how it settled, whether progress was recorded. */
  datatype DocStep = DocStep(calls: seq<DocCall>, settled: Settled, progressed: bool)

  /** The S3 key of a document. */
  function StorageKey(env: DocEnv, cxId: string, doc: Document): string {
    env.fileName(cxId, env.primaryId(doc))
  }

  /**
   The async function mapped over the documents: skip a stored document
   unless overriding, else download it, upsert its FHIR DocumentReference
   (pointing at the stored copy) and return it; the `finally` records progress
   whenever the patient can be reloaded.
   */
  function ProcessDocument(env: DocEnv, cxId: string, override: bool, doc: Document): DocStep
  {
    var key := StorageKey(env, cxId, doc);
    var checks := if override then [] else [ExistsCheck(key)];
    if !override && env.isStored(key) then DocStep(checks, Fulfilled(None), env.reload(doc))
    else if doc.location == "" then DocStep(checks, Fulfilled(None), env.reload(doc))
    else
      match env.download(doc, key)
      case Failure(e) => DocStep(checks + [Download(key)], Rejected(DownloadFailed(e)), env.reload(doc))
      case Success(up) =>
        var docRef := env.toFhir(doc.(location := up.location), up.key);
        var calls := checks + [Download(key), Upsert(docRef)];
        if env.upsert(docRef) then DocStep(calls, Fulfilled(Some(docRef)), env.reload(doc))
        else DocStep(calls, Rejected(UpsertFailed(docRef)), env.reload(doc))
  }

  /**
   The rules of one document's step: a stored document is skipped without a
   download when not overriding; override skips the existence check; a
   document not skipped and with a location is downloaded, and settles with
   its reference when download and upsert succeed and with the failing
   step's error otherwise; a returned reference was downloaded and
   successfully upserted; a rejection comes from a download or upsert;
   progress is recorded exactly when the patient reloads.
   */
  lemma ProcessDocumentRules(env: DocEnv, cxId: string, override: bool, doc: Document)
    ensures var key := StorageKey(env, cxId, doc);
      var r := ProcessDocument(env, cxId, override, doc);
      var fetches := (override || !env.isStored(key)) && doc.location != "";
      && (fetches ==> Download(key) in r.calls)
      && (fetches && env.download(doc, key).Failure? ==> r.settled == Rejected(DownloadFailed(env.download(doc, key).error)))
      && (fetches && env.download(doc, key).Success? ==>
        var up := env.download(doc, key).value;
        var docRef := env.toFhir(doc.(location := up.location), up.key);
        && Upsert(docRef) in r.calls
        && (env.upsert(docRef) ==> r.settled == Fulfilled(Some(docRef)))
        && (!env.upsert(docRef) ==> r.settled == Rejected(UpsertFailed(docRef))))
      && ((override || !env.isStored(key)) && doc.location == "" ==>
        r.settled == Fulfilled(None) && Download(key) !in r.calls)
    ensures var r := ProcessDocument(env, cxId, override, doc);
      && (!override && env.isStored(StorageKey(env, cxId, doc)) ==>
        r.settled == Fulfilled(None) && r.calls == [ExistsCheck(StorageKey(env, cxId, doc))])
      && (override ==> forall k :: ExistsCheck(k) !in r.calls)
      && (r.settled.Fulfilled? && r.settled.value.Some? ==>
        && Download(StorageKey(env, cxId, doc)) in r.calls
        && Upsert(r.settled.value.value) in r.calls
        && env.upsert(r.settled.value.value))
      && (r.settled.Rejected? ==> Download(StorageKey(env, cxId, doc)) in r.calls)
      && r.progressed == env.reload(doc)
  {
  }

  /** `Promise.allSettled` over the documents, built up one document at a time. */
  function SettleAll(env: DocEnv, cxId: string, override: bool, docs: seq<Document>): (r: seq<Settled>)
    ensures |r| == |docs|
    ensures forall i :: 0 <= i < |docs| ==> r[i] == ProcessDocument(env, cxId, override, docs[i]).settled
    decreases |docs|
  {
    if |docs| == 0 then []
    else
      var last := |docs| - 1;
      SettleAll(env, cxId, override, docs[..last]) + [ProcessDocument(env, cxId, override, docs[last]).settled]
  }

  /** `s3Refs.flatMap(...)`: the fulfilled, defined values, in document order. */
  function Collect(settled: seq<Settled>): (r: seq<FhirDocRef>)
    ensures |r| <= |settled|
  {
    if |settled| == 0 then []
    else
      var head := if settled[0].Fulfilled? && settled[0].value.Some? then [settled[0].value.value] else [];
      head + Collect(settled[1..])
  }

  lemma {:induction false} CollectAppend(a: seq<Settled>, b: seq<Settled>)
    ensures Collect(a + b) == Collect(a) + Collect(b)
  {
    if |a| > 0 {
      var head := if a[0].Fulfilled? && a[0].value.Some? then [a[0].value.value] else [];
      SplitFirst(a, b);
      assert Collect(a) == head + Collect(a[1..]);
      assert Collect(a + b) == head + Collect(a[1..] + b);
      CollectAppend(a[1..], b);
      Regroup(Collect(a + b), Collect(a[1..] + b), head, Collect(a[1..]), Collect(b));
    } else {
      assert a + b == b;
    }
  }

  /** The errors of the rejected steps, in document order; each is sent to `capture.error`. */
  function Rejections(settled: seq<Settled>): (r: seq<DocError>)
    ensures |r| + |Collect(settled)| <= |settled|
    ensures forall e :: e in r <==> Rejected(e) in settled
  {
    if |settled| == 0 then []
    else
      var head := if settled[0].Rejected? then [settled[0].error] else [];
      assert forall x :: x in settled <==> x == settled[0] || x in settled[1..];
      head + Rejections(settled[1..])
  }

  lemma {:induction false} RejectionsAppend(a: seq<Settled>, b: seq<Settled>)
    ensures Rejections(a + b) == Rejections(a) + Rejections(b)
  {
    if |a| > 0 {
      var head := if a[0].Rejected? then [a[0].error] else [];
      SplitFirst(a, b);
      assert Rejections(a) == head + Rejections(a[1..]);
      assert Rejections(a + b) == head + Rejections(a[1..] + b);
      RejectionsAppend(a[1..], b);
      Regroup(Rejections(a + b), Rejections(a[1..] + b), head, Rejections(a[1..]), Rejections(b));
    } else {
      assert a + b == b;
    }
  }

  /**
   Per-document isolation: whatever one document's outcome, the others'
   values are kept, so a failing document costs the result at most itself.
   */
  lemma OneFailureCostsAtMostOne(before: seq<Settled>, s: Settled, after: seq<Settled>, err: DocError)
    ensures Collect(before + [Rejected(err)] + after) == Collect(before) + Collect(after)
    ensures |Collect(before + [s] + after)| <= |Collect(before + [Rejected(err)] + after)| + 1
  {
    var rejected := [Rejected(err)];
    assert rejected[1..] == [];
    assert Collect(rejected) == [];
    CollectAppend(before + rejected, after);
    CollectAppend(before, rejected);
    assert |Collect([s])| <= 1;
    CollectAppend(before + [s], after);
    CollectAppend(before, [s]);
  }

  /** The number of documents whose step recorded progress. */
  function CountProgressed(env: DocEnv, docs: seq<Document>): (n: nat)
    ensures n <= |docs|
    decreases |docs|
  {
    if |docs| == 0 then 0
    else CountProgressed(env, docs[..|docs| - 1]) + (if env.reload(docs[|docs| - 1]) then 1 else 0)
  }

  /**
   The errors one document's step sends to `capture.error`: its rejection,
   from the `catch`, then a failed reload of the patient, from the `finally`.
   */
  function StepCaptures(s: Settled, reloaded: bool): (r: seq<QueryError>)
    ensures FailedDocs(r) == Failures(s)
    ensures ReloadFailures(r) == (if reloaded then 0 else 1)
    ensures |r| == |Failures(s)| + (if reloaded then 0 else 1)
  {
    var rejected := if s.Rejected? then [DocumentFailed(s.error)] else [];
    var reload := if reloaded then [] else [ReloadFailed];
    FailedDocsAppend(rejected, reload);
    ReloadFailuresAppend(rejected, reload);
    rejected + reload
  }

  /** The errors captured while settling the documents, document by document. */
  function DocCaptures(env: DocEnv, cxId: string, override: bool, docs: seq<Document>): (r: seq<QueryError>)
    decreases |docs|
  {
    if |docs| == 0 then []
    else
      var last := |docs| - 1;
      DocCaptures(env, cxId, override, docs[..last]) +
        StepCaptures(ProcessDocument(env, cxId, override, docs[last]).settled, env.reload(docs[last]))
  }

  /** The document errors among the captures, in order. */
  function FailedDocs(c: seq<QueryError>): seq<DocError> {
    if |c| == 0 then []
    else (if c[0].DocumentFailed? then [c[0].docError] else []) + FailedDocs(c[1..])
  }

  /** The number of failed patient reloads among the captures. */
  function ReloadFailures(c: seq<QueryError>): nat {
    if |c| == 0 then 0
    else (if c[0].ReloadFailed? then 1 else 0) + ReloadFailures(c[1..])
  }

  lemma {:induction false} FailedDocsAppend(a: seq<QueryError>, b: seq<QueryError>)
    ensures FailedDocs(a + b) == FailedDocs(a) + FailedDocs(b)
  {
    if |a| > 0 {
      var head := if a[0].DocumentFailed? then [a[0].docError] else [];
      SplitFirst(a, b);
      assert FailedDocs(a) == head + FailedDocs(a[1..]);
      assert FailedDocs(a + b) == head + FailedDocs(a[1..] + b);
      FailedDocsAppend(a[1..], b);
      Regroup(FailedDocs(a + b), FailedDocs(a[1..] + b), head, FailedDocs(a[1..]), FailedDocs(b));
    } else {
      assert a + b == b;
    }
  }

  lemma {:induction false} ReloadFailuresAppend(a: seq<QueryError>, b: seq<QueryError>)
    ensures ReloadFailures(a + b) == ReloadFailures(a) + ReloadFailures(b)
  {
    if |a| > 0 {
      SplitFirst(a, b);
      ReloadFailuresAppend(a[1..], b);
    } else {
      assert a + b == b;
    }
  }

  /** Settling one more document appends its own captures. */
  lemma DocCapturesStep(env: DocEnv, cxId: string, override: bool, docs: seq<Document>, k: nat)
    requires k < |docs|
    ensures DocCaptures(env, cxId, override, docs[..k + 1]) ==
      DocCaptures(env, cxId, override, docs[..k]) + StepCaptures(ProcessDocument(env, cxId, override, docs[k]).settled, env.reload(docs[k]))
  {
    assert docs[..k + 1][..k] == docs[..k];
    assert docs[..k + 1][k] == docs[k];
  }

  /**
   The captures of a batch: exactly the rejections, in document order, plus
   one failed reload per document whose patient did not reload.
   */
  lemma DocCapturesContents(env: DocEnv, cxId: string, override: bool, docs: seq<Document>)
    ensures FailedDocs(DocCaptures(env, cxId, override, docs)) == Rejections(SettleAll(env, cxId, override, docs))
    ensures ReloadFailures(DocCaptures(env, cxId, override, docs)) == |docs| - CountProgressed(env, docs)
    ensures |DocCaptures(env, cxId, override, docs)| ==
      |Rejections(SettleAll(env, cxId, override, docs))| + |docs| - CountProgressed(env, docs)
  {
    DocCapturesFailed(env, cxId, override, docs);
    DocCapturesReloads(env, cxId, override, docs);
    DocCapturesLength(env, cxId, override, docs);
  }

  lemma {:induction false} DocCapturesFailed(env: DocEnv, cxId: string, override: bool, docs: seq<Document>)
    ensures FailedDocs(DocCaptures(env, cxId, override, docs)) == Rejections(SettleAll(env, cxId, override, docs))
    decreases |docs|
  {
    if |docs| > 0 {
      var last := |docs| - 1;
      var prefix := docs[..last];
      var s := ProcessDocument(env, cxId, override, docs[last]).settled;
      var before := DocCaptures(env, cxId, override, prefix);
      DocCapturesFailed(env, cxId, override, prefix);
      FailedDocsAppend(before, StepCaptures(s, env.reload(docs[last])));
      SettledAppendOne(SettleAll(env, cxId, override, prefix), s);
    }
  }

  lemma {:induction false} DocCapturesReloads(env: DocEnv, cxId: string, override: bool, docs: seq<Document>)
    ensures ReloadFailures(DocCaptures(env, cxId, override, docs)) == |docs| - CountProgressed(env, docs)
    decreases |docs|
  {
    if |docs| > 0 {
      var last := |docs| - 1;
      var prefix := docs[..last];
      var s := ProcessDocument(env, cxId, override, docs[last]).settled;
      DocCapturesReloads(env, cxId, override, prefix);
      ReloadFailuresAppend(DocCaptures(env, cxId, override, prefix), StepCaptures(s, env.reload(docs[last])));
    }
  }

  lemma {:induction false} DocCapturesLength(env: DocEnv, cxId: string, override: bool, docs: seq<Document>)
    ensures |DocCaptures(env, cxId, override, docs)| ==
      |Rejections(SettleAll(env, cxId, override, docs))| + |docs| - CountProgressed(env, docs)
    decreases |docs|
  {
    if |docs| > 0 {
      var last := |docs| - 1;
      var prefix := docs[..last];
      var s := ProcessDocument(env, cxId, override, docs[last]).settled;
      DocCapturesLength(env, cxId, override, prefix);
      SettledAppendOne(SettleAll(env, cxId, override, prefix), s);
    }
  }

  /**
   `downloadDocsAndUpsertFHIR`: the FHIR references of the documents that
   were stored and upserted, and the progress written after each document
   (`completedCount` and `documents.length`).
   */
  method DownloadDocsAndUpsertFHIR(env: DocEnv, cxId: string, docs: seq<Document>, override: bool := false)
    returns (refs: seq<FhirDocRef>, progress: seq<Progress>, failures: seq<DocError>, captured: seq<QueryError>)
    ensures refs == Collect(SettleAll(env, cxId, override, docs))
    ensures failures == Rejections(SettleAll(env, cxId, override, docs))
    ensures captured == DocCaptures(env, cxId, override, docs)
    ensures progress == ProgressSeries(CountProgressed(env, docs), |docs|)
    ensures |progress| <= |docs|
  {
    refs := [];
    progress := [];
    failures := [];
    captured := [];
    var completedCount := 0;
    var k := 0;
    while k < |docs|
      invariant 0 <= k <= |docs|
      invariant refs == Collect(SettleAll(env, cxId, override, docs[..k]))
      invariant failures == Rejections(SettleAll(env, cxId, override, docs[..k]))
      invariant captured == DocCaptures(env, cxId, override, docs[..k])
      invariant completedCount == CountProgressed(env, docs[..k])
      invariant progress == ProgressSeries(completedCount, |docs|)
    {
      var value, failure, progressed, captures := SettleOne(env, cxId, override, docs, k);
      refs := refs + value;
      failures := failures + failure;
      captured := captured + captures;
      if progressed {
        ProgressSeriesPush(completedCount, |docs|);
        completedCount := completedCount + 1;
        progress := progress + [Progress(completedCount, |docs|)];
      }
      k := k + 1;
    }
    assert docs[..k] == docs;
  }

  /** The progress values written by `n` documents out of `total`: 1, 2, ..., n, each out of `total`. */
  function ProgressSeries(n: nat, total: nat): (r: seq<Progress>)
    ensures |r| == n
    ensures forall i :: 0 <= i < n ==> r[i] == Progress(i + 1, total)
  {
    seq(n, i requires 0 <= i < n => Progress(i + 1, total))
  }

  lemma ProgressSeriesPush(n: nat, total: nat)
    ensures ProgressSeries(n, total) + [Progress(n + 1, total)] == ProgressSeries(n + 1, total)
  {
  }

  /**
   One document of the `allSettled` batch: what it adds to the result and to
   the reported errors, and whether its `finally` recorded progress.
   */
  method SettleOne(env: DocEnv, cxId: string, override: bool, docs: seq<Document>, k: nat)
    returns (value: seq<FhirDocRef>, failure: seq<DocError>, progressed: bool, captures: seq<QueryError>)
    requires k < |docs|
    ensures Collect(SettleAll(env, cxId, override, docs[..k + 1])) == Collect(SettleAll(env, cxId, override, docs[..k])) + value
    ensures Rejections(SettleAll(env, cxId, override, docs[..k + 1])) == Rejections(SettleAll(env, cxId, override, docs[..k])) + failure
    ensures progressed ==> CountProgressed(env, docs[..k + 1]) == CountProgressed(env, docs[..k]) + 1
    ensures !progressed ==> CountProgressed(env, docs[..k + 1]) == CountProgressed(env, docs[..k])
    ensures DocCaptures(env, cxId, override, docs[..k + 1]) == DocCaptures(env, cxId, override, docs[..k]) + captures
  {
    var step := ProcessDocument(env, cxId, override, docs[k]);
    CollectStep(env, cxId, override, docs, k);
    CountStep(env, docs, k);
    ProcessDocumentRules(env, cxId, override, docs[k]);
    value := Value(step.settled);
    failure := Failures(step.settled);
    progressed := step.progressed;
    captures := StepCaptures(step.settled, env.reload(docs[k]));
    DocCapturesStep(env, cxId, override, docs, k);
  }

  lemma CountStep(env: DocEnv, docs: seq<Document>, k: nat)
    requires k < |docs|
    ensures CountProgressed(env, docs[..k + 1]) == CountProgressed(env, docs[..k]) + (if env.reload(docs[k]) then 1 else 0)
  {
    assert docs[..k + 1][..k] == docs[..k];
  }

  /** The error one settled step reports. */
  function Failures(s: Settled): seq<DocError> {
    if s.Rejected? then [s.error] else []
  }

  /** The value one settled step contributes to the result. */
  function Value(s: Settled): seq<FhirDocRef> {
    if s.Fulfilled? && s.value.Some? then [s.value.value] else []
  }

  /** Appending one document's step appends its value and its rejection, if any. */
  lemma CollectStep(env: DocEnv, cxId: string, override: bool, docs: seq<Document>, k: nat)
    requires k < |docs|
    ensures Collect(SettleAll(env, cxId, override, docs[..k + 1])) ==
      Collect(SettleAll(env, cxId, override, docs[..k])) + Value(ProcessDocument(env, cxId, override, docs[k]).settled)
    ensures var s := ProcessDocument(env, cxId, override, docs[k]).settled;
      Rejections(SettleAll(env, cxId, override, docs[..k + 1])) ==
      Rejections(SettleAll(env, cxId, override, docs[..k])) + Failures(s)
  {
    var s := ProcessDocument(env, cxId, override, docs[k]).settled;
    SettleAllStep(env, cxId, override, docs, k);
    SettledAppendOne(SettleAll(env, cxId, override, docs[..k]), s);
  }

  /** Settling one more document appends its own outcome. */
  lemma SettleAllStep(env: DocEnv, cxId: string, override: bool, docs: seq<Document>, k: nat)
    requires k < |docs|
    ensures SettleAll(env, cxId, override, docs[..k + 1]) ==
      SettleAll(env, cxId, override, docs[..k]) + [ProcessDocument(env, cxId, override, docs[k]).settled]
  {
    assert docs[..k + 1][..k] == docs[..k];
  }

  /** One more outcome appends its value to the result and its error to the reports. */
  lemma SettledAppendOne(a: seq<Settled>, s: Settled)
    ensures Collect(a + [s]) == Collect(a) + Value(s)
    ensures Rejections(a + [s]) == Rejections(a) + Failures(s)
  {
    assert [s][0] == s && [s][1..] == [];
    assert Collect([s]) == Value(s) + Collect([]);
    assert Rejections([s]) == Failures(s) + Rejections([]);
    CollectAppend(a, [s]);
    RejectionsAppend(a, [s]);
  }

  /**
   A re-run without override over documents that are all stored downloads
   nothing and returns no references.
   */
  lemma {:induction false} StoredDocumentsAreSkipped(env: DocEnv, cxId: string, docs: seq<Document>)
    requires forall i :: 0 <= i < |docs| ==> env.isStored(StorageKey(env, cxId, docs[i]))
    ensures Collect(SettleAll(env, cxId, false, docs)) == []
    ensures forall i :: 0 <= i < |docs| ==> Download(StorageKey(env, cxId, docs[i])) !in ProcessDocument(env, cxId, false, docs[i]).calls
  {
    forall i | 0 <= i < |docs|
      ensures Download(StorageKey(env, cxId, docs[i])) !in ProcessDocument(env, cxId, false, docs[i]).calls
    {
      ProcessDocumentRules(env, cxId, false, docs[i]);
    }
    if |docs| > 0 {
      var last := |docs| - 1;
      var prefix := docs[..last];
      ProcessDocumentRules(env, cxId, false, docs[last]);
      StoredDocumentsAreSkipped(env, cxId, prefix);
      CollectAppend(SettleAll(env, cxId, false, prefix), [ProcessDocument(env, cxId, false, docs[last]).settled]);
    }
  }

  /**
   The collaborators of `queryDocuments`: `getPatientData` (false when the
   organization or facility cannot be found), the sandbox flag and the
   sandbox payload, the CommonWell document query, base64url decoding used
   by `toDTO`, and the per-document collaborators.
   */
  datatype QueryEnv = QueryEnv(
    patientDataFound: bool,
    sandbox: bool,
    sandboxPayload: seq<FhirDocRef>,
    query: string -> Result<seq<QueryEntry>, NetError>,
    decode: string -> string,
    docs: DocEnv)

  /** One `updateDocQuery` call: the status written, and the progress when given. */
  datatype StatusWrite = StatusWrite(status: QueryStatus, progress: Option<Progress>)

  /**
   An error of `queryDocuments`. `ReloadFailed` is the `capture.error` of a
   document's `finally` when the patient cannot be reloaded.
   */
  datatype QueryError = PatientDataMissing | QueryFailed(cause: NetError) | DocumentFailed(docError: DocError) | ReloadFailed

  /**
   What one `queryDocuments` run did: the status writes in order, the usage
   reports, the webhook payload sent to the customer, the errors captured,
   and how the call ended.
   */
  datatype QueryRun = QueryRun(
    statusWrites: seq<StatusWrite>,
    usageReports: nat,
    webhook: Option<seq<DocumentDTO.DocumentReferenceDTO>>,
    captured: seq<QueryError>,
    result: Result<(), QueryError>)

  predicate ProgressWrites(writes: seq<StatusWrite>) {
    forall i :: 0 <= i < |writes| ==>
      && writes[i].status == Processing
      && writes[i].progress.Some?
      && writes[i].progress.value.completed <= writes[i].progress.value.total
  }

  /**
   `queryDocuments`. Once the organization and facility are found, every path
   (sandbox, success, failure) ends with one "completed" status write after
   the progress writes; usage is reported once on the non-sandbox success
   path; the webhook is sent exactly when the call succeeds; a failing query
   is captured by both functions and rethrown.
   */
  method QueryDocuments(env: QueryEnv, patient: Patient, override: bool := false) returns (run: QueryRun)
    ensures !env.patientDataFound ==> run == QueryRun([], 0, None, [], Failure(PatientDataMissing))
    ensures env.patientDataFound ==>
      && |run.statusWrites| > 0
      && run.statusWrites[|run.statusWrites| - 1] == StatusWrite(Completed, None)
      && ProgressWrites(run.statusWrites[..|run.statusWrites| - 1])
    ensures run.usageReports == (if env.patientDataFound && !env.sandbox && run.result.Success? then 1 else 0)
    ensures run.webhook.Some? <==> run.result.Success?
    ensures env.patientDataFound && env.sandbox ==>
      run.result.Success? && run.webhook == Some(DocumentDTO.ToDTO(Some(env.sandboxPayload), env.decode))
    ensures env.patientDataFound && !env.sandbox && CommonwellEntry(patient.externalData).None? ==>
      run == QueryRun([StatusWrite(Completed, None)], 1, Some([]), [], Success(()))
    ensures (env.patientDataFound && !env.sandbox && CommonwellEntry(patient.externalData).Some? &&
      env.query(CommonwellEntry(patient.externalData).value.patientId).Failure?) ==>
      var e := QueryFailed(env.query(CommonwellEntry(patient.externalData).value.patientId).error);
      run.result == Failure(e) && run.captured == [e, e] && run.statusWrites == [StatusWrite(Completed, None)]
    ensures env.patientDataFound && !env.sandbox && run.result.Success? ==>
      var docs := InternalGetDocuments(patient.externalData, env.query).result.value.documents;
      var settled := SettleAll(env.docs, patient.cxId, override, docs);
      && run.webhook == Some(DocumentDTO.ToDTO(Some(Collect(settled)), env.decode))
      && run.captured == DocCaptures(env.docs, patient.cxId, override, docs)
      && FailedDocs(run.captured) == Rejections(settled)
      && ReloadFailures(run.captured) == |docs| - CountProgressed(env.docs, docs)
      && |run.captured| == |Rejections(settled)| + |docs| - CountProgressed(env.docs, docs)
    ensures env.patientDataFound && !env.sandbox && run.result.Success? ==>
      var docs := InternalGetDocuments(patient.externalData, env.query).result.value.documents;
      && |run.statusWrites| == CountProgressed(env.docs, docs) + 1
      && forall i :: 0 <= i < |run.statusWrites| - 1 ==>
        run.statusWrites[i] == StatusWrite(Processing, Some(Progress(i + 1, |docs|)))
  {
    if !env.patientDataFound {
      return QueryRun([], 0, None, [], Failure(PatientDataMissing));
    }
    var completed := StatusWrite(Completed, None);
    if env.sandbox {
      var dtos := DocumentDTO.ToDTO(Some(env.sandboxPayload), env.decode);
      return QueryRun([completed], 0, Some(dtos), [], Success(()));
    }
    var fetched := InternalGetDocuments(patient.externalData, env.query);
    match fetched.result {
      case Failure(e) =>
        var err := QueryFailed(e);
        return QueryRun([completed], 0, None, [err, err], Failure(err));
      case Success(found) =>
        run := ProcessFound(env, patient.cxId, found.documents, override);
    }
  }

  /**
   The non-sandbox success path of `queryDocuments` once the documents are
   known: download and upsert them, report usage once, send the webhook with
   the DTOs of the collected references, and write one "processing" status
   per document whose patient reloaded, then "completed".
   */
  method ProcessFound(env: QueryEnv, cxId: string, docs: seq<Document>, override: bool) returns (run: QueryRun)
    ensures run.result == Success(()) && run.usageReports == 1
    ensures var settled := SettleAll(env.docs, cxId, override, docs);
      && run.webhook == Some(DocumentDTO.ToDTO(Some(Collect(settled)), env.decode))
      && run.captured == DocCaptures(env.docs, cxId, override, docs)
      && FailedDocs(run.captured) == Rejections(settled)
      && ReloadFailures(run.captured) == |docs| - CountProgressed(env.docs, docs)
      && |run.captured| == |Rejections(settled)| + |docs| - CountProgressed(env.docs, docs)
    ensures |run.statusWrites| == CountProgressed(env.docs, docs) + 1
    ensures run.statusWrites[|run.statusWrites| - 1] == StatusWrite(Completed, None)
    ensures forall i :: 0 <= i < |run.statusWrites| - 1 ==>
      run.statusWrites[i] == StatusWrite(Processing, Some(Progress(i + 1, |docs|)))
    ensures ProgressWrites(run.statusWrites[..|run.statusWrites| - 1])
  {
    var refs, progress, failures, captured := DownloadDocsAndUpsertFHIR(env.docs, cxId, docs, override);
    DocCapturesContents(env.docs, cxId, override, docs);
    var dtos := DocumentDTO.ToDTO(Some(refs), env.decode);
    run := QueryRun(FinalWrites(progress, |docs|), 1, Some(dtos), captured, Success(()));
  }

  /** The status writes of a run whose documents reported `progress`: one "processing" write each, then "completed". */
  function FinalWrites(progress: seq<Progress>, total: nat): (w: seq<StatusWrite>)
    requires |progress| <= total && progress == ProgressSeries(|progress|, total)
    ensures |w| == |progress| + 1
    ensures w[|progress|] == StatusWrite(Completed, None)
    ensures forall i :: 0 <= i < |progress| ==> w[i] == StatusWrite(Processing, Some(Progress(i + 1, total)))
    ensures ProgressWrites(w[..|progress|])
  {
    var writes := ProgressToWrites(progress);
    assert (writes + [StatusWrite(Completed, None)])[..|progress|] == writes;
    writes + [StatusWrite(Completed, None)]
  }

  /** The "processing" writes of the per-document progress updates. */
  function ProgressToWrites(progress: seq<Progress>): (w: seq<StatusWrite>)
    requires forall i :: 0 <= i < |progress| ==> progress[i].completed <= progress[i].total
    ensures |w| == |progress|
    ensures ProgressWrites(w)
    ensures forall i :: 0 <= i < |w| ==> w[i].progress == Some(progress[i])
  {
    if |progress| == 0 then []
    else [StatusWrite(Processing, Some(progress[0]))] + ProgressToWrites(progress[1..])
  }

  /** The patient record after the status writes of a run, in order. */
  function ApplyWrites(p: Patient, writes: seq<StatusWrite>): Patient
    decreases |writes|
  {
    if |writes| == 0 then p
    else ApplyWrites(UpdateDocQuery(p, writes[0].status, writes[0].progress), writes[1..])
  }

  lemma {:induction false} ApplyWritesLast(p: Patient, writes: seq<StatusWrite>)
    requires |writes| > 0
    ensures ApplyWrites(p, writes).documentQueryStatus == Some(writes[|writes| - 1].status)
    ensures ApplyWrites(p, writes).id == p.id && ApplyWrites(p, writes).cxId == p.cxId
    decreases |writes|
  {
    if |writes| > 1 {
      ApplyWritesLast(UpdateDocQuery(p, writes[0].status, writes[0].progress), writes[1..]);
    }
  }

  /**
   A run that ends with the "completed" write leaves the patient not
   processing: `areDocumentsProcessing` answers false once the writes land.
   */
  lemma NotProcessingAfterRun(store: DocumentStatus.PatientStore, key: DocumentStatus.PatientKey, writes: seq<StatusWrite>)
    requires key in store
    requires |writes| > 0 && writes[|writes| - 1].status == Completed
    ensures var s := store[key := ApplyWrites(store[key], writes)];
      DocumentStatus.AreDocumentsProcessing(s, key.id, key.cxId) == Success(false)
  {
    ApplyWritesLast(store[key], writes);
  }
}

=== FILE: document_status.dfy ===
/**
 `areDocumentsProcessing`: whether the stored document query of a patient is
 still running.
 */
module DocumentStatus {
  import opened Wrappers
  import opened Patients

  /** Patients are looked up by id within a customer. */
  datatype PatientKey = PatientKey(id: string, cxId: string)

  type PatientStore = map<PatientKey, Patient>

  /** `getPatientOrFail` found no patient for the key. */
  datatype NotFoundError = PatientNotFound(key: PatientKey)

  /**
   `areDocumentsProcessing({id, cxId})`: fails when the patient does not exist,
   else holds exactly when the stored status is "processing".
   */
  function AreDocumentsProcessing(store: PatientStore, id: string, cxId: string): (r: Result<bool, NotFoundError>)
    ensures r.Failure? <==> PatientKey(id, cxId) !in store
    ensures r.Failure? ==> r.error == PatientNotFound(PatientKey(id, cxId))
    ensures r.Success? ==> (r.value <==> store[PatientKey(id, cxId)].documentQueryStatus == Some(Processing))
    ensures r.Success? && store[PatientKey(id, cxId)].documentQueryStatus != Some(Processing) ==> !r.value
  {
    var key := PatientKey(id, cxId);
    if key in store then Success(store[key].documentQueryStatus == Some(Processing))
    else Failure(PatientNotFound(key))
  }

  /**
   The predicate reads what `updateDocQuery` wrote: true after a "processing"
   write, false after a "completed" write, and unchanged by writes to other
   patients.
   */
  lemma ReadsLastStatusWrite(store: PatientStore, key: PatientKey, other: PatientKey, status: QueryStatus, progress: Option<Progress>)
    requires key in store
    ensures var s := store[key := UpdateDocQuery(store[key], status, progress)];
      AreDocumentsProcessing(s, key.id, key.cxId) == Success(status == Processing)
    ensures other != key ==>
      var s := store[key := UpdateDocQuery(store[key], status, progress)];
      AreDocumentsProcessing(s, other.id, other.cxId) == AreDocumentsProcessing(store, other.id, other.cxId)
  {
  }
}

=== FILE: facility.dfy ===
/**
 The `beforeCreate` hook of the facility model: allocation of the next
 facility number inside an organization and construction of the facility's
 OID, `<root>.<organizations node>.<organizationId>.<locations node>.<facId>`.
 */
module Facility {
  import opened Wrappers
  import Strings

  /**
   The OID constants the hook reads: the system root OID, the numbers of the
   `organizations` and `locations` OID nodes, and `OID_ID_START`.
   */
  datatype OidConfig = OidConfig(root: string, organizationsNode: nat, locationsNode: nat, idStart: nat)

  /** A stored facility row, as far as the hook's `max` query reads it. */
  datatype FacilityRow = FacilityRow(organizationId: nat, facilityId: nat)

  /** The attributes the hook fills in on the facility being created. */
  datatype NewFacility = NewFacility(id: string, facilityId: nat)

  /**
   `Facility.max("facilityId", { where: { organizationId } })`: the largest
   facility number of the organization, or `None` (null) when it has none.
   */
  function MaxFacilityId(rows: seq<FacilityRow>, organizationId: nat): (r: Option<nat>)
    ensures r.None? <==> forall i :: 0 <= i < |rows| ==> rows[i].organizationId != organizationId
    ensures r.Some? ==> exists i :: 0 <= i < |rows| && rows[i].organizationId == organizationId && rows[i].facilityId == r.value
    ensures r.Some? ==> forall i :: 0 <= i < |rows| && rows[i].organizationId == organizationId ==> rows[i].facilityId <= r.value
  {
    if |rows| == 0 then None
    else
      var rest := MaxFacilityId(rows[1..], organizationId);
      assert forall i :: 1 <= i < |rows| ==> rows[i] == rows[1..][i - 1];
      if rows[0].organizationId != organizationId then rest
      else match rest
        case None => Some(rows[0].facilityId)
        case Some(m) => Some(if rows[0].facilityId > m then rows[0].facilityId else m)
  }

  /** The OID of facility `facId` of organization `organizationId`. */
  function FacilityOid(cfg: OidConfig, organizationId: nat, facId: nat): string
  {
    cfg.root + "." + Strings.NatToString(cfg.organizationsNode)
      + "." + Strings.NatToString(organizationId)
      + "." + Strings.NatToString(cfg.locationsNode)
      + "." + Strings.NatToString(facId)
  }

  /**
   `beforeCreate`: the new facility number is one past the organization's
   current maximum when that maximum is truthy (present and non-zero), else
   `OID_ID_START`; the id is the facility OID built from that number.
   */
  function BeforeCreate(cfg: OidConfig, rows: seq<FacilityRow>, organizationId: nat): (r: NewFacility)
    ensures r.id == FacilityOid(cfg, organizationId, r.facilityId)
    ensures MaxFacilityId(rows, organizationId).Some? && MaxFacilityId(rows, organizationId).value != 0 ==>
      r.facilityId == MaxFacilityId(rows, organizationId).value + 1
    ensures MaxFacilityId(rows, organizationId).Some? && MaxFacilityId(rows, organizationId).value != 0 ==>
      forall i :: 0 <= i < |rows| && rows[i].organizationId == organizationId ==> rows[i].facilityId < r.facilityId
    ensures (exists i :: 0 <= i < |rows| && rows[i].organizationId == organizationId && rows[i].facilityId != 0) ==>
      && r.facilityId >= 1
      && (exists i :: 0 <= i < |rows| && rows[i].organizationId == organizationId && rows[i].facilityId == r.facilityId - 1)
    ensures (forall i :: 0 <= i < |rows| && rows[i].organizationId == organizationId ==> rows[i].facilityId == 0) ==>
      r.facilityId == cfg.idStart
  {
    var max := MaxFacilityId(rows, organizationId);
    var facId := if max.Some? && max.value != 0 then max.value + 1 else cfg.idStart;
    NewFacility(FacilityOid(cfg, organizationId, facId), facId)
  }

  /** The dot-separated segments of the root OID followed by the four numbers. */
  lemma {:induction false} FacilityOidSegments(cfg: OidConfig, organizationId: nat, facId: nat)
    ensures Strings.Split(FacilityOid(cfg, organizationId, facId), '.') ==
      Strings.Split(cfg.root, '.') + [Strings.NatToString(cfg.organizationsNode),
        Strings.NatToString(organizationId), Strings.NatToString(cfg.locationsNode),
        Strings.NatToString(facId)]
  {
    var a := Strings.NatToString(cfg.organizationsNode);
    var b := Strings.NatToString(organizationId);
    var c := Strings.NatToString(cfg.locationsNode);
    var d := Strings.NatToString(facId);
    Strings.NatToStringHasNo(cfg.organizationsNode, '.');
    Strings.NatToStringHasNo(organizationId, '.');
    Strings.NatToStringHasNo(cfg.locationsNode, '.');
    Strings.NatToStringHasNo(facId, '.');
    Strings.SplitWithout(a, '.');
    Strings.SplitWithout(b, '.');
    Strings.SplitWithout(c, '.');
    Strings.SplitWithout(d, '.');
    var r := cfg.root;
    assert FacilityOid(cfg, organizationId, facId) == (r + "." + a + "." + b + "." + c) + ['.'] + d;
    Strings.SplitAround(r + "." + a + "." + b + "." + c, '.', d);
    assert r + "." + a + "." + b + "." + c == (r + "." + a + "." + b) + ['.'] + c;
    Strings.SplitAround(r + "." + a + "." + b, '.', c);
    assert r + "." + a + "." + b == (r + "." + a) + ['.'] + b;
    Strings.SplitAround(r + "." + a, '.', b);
    assert r + "." + a == r + ['.'] + a;
    Strings.SplitAround(r, '.', a);
  }

  /** The number after the last dot of an OID, when it is made of digits. */
  function LastNumber(oid: string): Option<nat>
  {
    var segments := Strings.Split(oid, '.');
    var last := segments[|segments| - 1];
    if forall i :: 0 <= i < |last| ==> Strings.IsDigit(last[i]) then Some(Strings.ParseNat(last)) else None
  }

  /** The organization number: the third segment from the end of a facility OID. */
  function OrganizationNumber(oid: string): Option<nat>
  {
    var segments := Strings.Split(oid, '.');
    if |segments| < 4 then None
    else
      var seg := segments[|segments| - 3];
      if forall i :: 0 <= i < |seg| ==> Strings.IsDigit(seg[i]) then Some(Strings.ParseNat(seg)) else None
  }

  /**
   The stored `facilityId` is the number at the end of the new facility's id,
   and the organization's number sits where the OID layout puts it.
   */
  lemma FacilityIdIsEmbedded(cfg: OidConfig, rows: seq<FacilityRow>, organizationId: nat)
    ensures LastNumber(BeforeCreate(cfg, rows, organizationId).id) == Some(BeforeCreate(cfg, rows, organizationId).facilityId)
    ensures OrganizationNumber(BeforeCreate(cfg, rows, organizationId).id) == Some(organizationId)
  {
    var r := BeforeCreate(cfg, rows, organizationId);
    FacilityOidSegments(cfg, organizationId, r.facilityId);
    Strings.ParseNatToString(r.facilityId);
    Strings.ParseNatToString(organizationId);
  }

  /** The first facility of an organization gets `OID_ID_START`; the next one, one more. */
  lemma FirstAndSecondFacility(cfg: OidConfig, organizationId: nat)
    requires cfg.idStart > 0
    ensures BeforeCreate(cfg, [], organizationId).facilityId == cfg.idStart
    ensures BeforeCreate(cfg, [FacilityRow(organizationId, cfg.idStart)], organizationId).facilityId == cfg.idStart + 1
  {
  }
}

=== FILE: google.dfy ===
/**
 `getValues` of the Google Fit mapping: the non-zero readings under one value
 key, collected point by point.
 */
module GoogleMappings {
  import opened Wrappers

  /** `ValueKey`: which numeric field of a point value to read. */
  datatype ValueKey = FpVal | IntVal

  /** One entry of a point's `value` array (`mapVal` is not read by `getValues`). */
  datatype PointValue = PointValue(fpVal: Option<real>, intVal: Option<real>)

  /** One point of a `GooglePoint` array; its time stamps are not read by `getValues`. */
  datatype Point = Point(value: seq<PointValue>)

  function Get(v: PointValue, key: ValueKey): Option<real> {
    match key
    case FpVal => v.fpVal
    case IntVal => v.intVal
  }

  /** `val[key]` is truthy: present and not zero. */
  predicate HasReading(v: PointValue, key: ValueKey) {
    Get(v, key).Some? && Get(v, key).value != 0.0
  }

  /** `curr.value.filter(val => val[key])` followed by pushing each `val[key]`. */
  function Readings(values: seq<PointValue>, key: ValueKey): (r: seq<real>)
    ensures |r| <= |values|
  {
    if |values| == 0 then []
    else
      var head := if HasReading(values[0], key) then [Get(values[0], key).value] else [];
      head + Readings(values[1..], key)
  }

  /** The `reduce` of `getValues`: `acc` is the accumulator passed from point to point. */
  function CollectFrom(arr: seq<Point>, key: ValueKey, acc: seq<real>): seq<real>
  {
    if |arr| == 0 then acc else CollectFrom(arr[1..], key, acc + Readings(arr[0].value, key))
  }

  /** `getValues(arr, key)`; the key defaults to `fpVal`. */
  function GetValues(arr: seq<Point>, key: ValueKey := FpVal): seq<real>
  {
    CollectFrom(arr, key, [])
  }

  /** The readings of every point, concatenated in point order (reference definition). */
  function AllReadings(arr: seq<Point>, key: ValueKey): seq<real>
  {
    if |arr| == 0 then [] else Readings(arr[0].value, key) + AllReadings(arr[1..], key)
  }

  /** The number of value entries across all points. */
  function EntryCount(arr: seq<Point>): nat
  {
    if |arr| == 0 then 0 else |arr[0].value| + EntryCount(arr[1..])
  }

  lemma {:induction false} CollectFromIsAppend(arr: seq<Point>, key: ValueKey, acc: seq<real>)
    ensures CollectFrom(arr, key, acc) == acc + AllReadings(arr, key)
  {
    if |arr| > 0 {
      CollectFromIsAppend(arr[1..], key, acc + Readings(arr[0].value, key));
    }
  }

  /** The fold computes the readings of every point in point order, then value order. */
  lemma GetValuesIsAllReadings(arr: seq<Point>, key: ValueKey)
    ensures GetValues(arr, key) == AllReadings(arr, key)
  {
    CollectFromIsAppend(arr, key, []);
  }

  lemma {:induction false} ReadingsMembership(values: seq<PointValue>, key: ValueKey, x: real)
    ensures x in Readings(values, key) <==>
      exists j :: 0 <= j < |values| && HasReading(values[j], key) && Get(values[j], key).value == x
  {
    if |values| > 0 {
      ReadingsMembership(values[1..], key, x);
      if exists j :: 0 <= j < |values| && HasReading(values[j], key) && Get(values[j], key).value == x {
        var j :| 0 <= j < |values| && HasReading(values[j], key) && Get(values[j], key).value == x;
        if j > 0 { assert values[1..][j - 1] == values[j]; }
      }
    }
  }

  lemma {:induction false} AllReadingsMembership(arr: seq<Point>, key: ValueKey, x: real)
    ensures x in AllReadings(arr, key) <==>
      exists i :: 0 <= i < |arr| && x in Readings(arr[i].value, key)
  {
    if |arr| > 0 {
      AllReadingsMembership(arr[1..], key, x);
      if exists i :: 0 <= i < |arr| && x in Readings(arr[i].value, key) {
        var i :| 0 <= i < |arr| && x in Readings(arr[i].value, key);
        if i > 0 { assert arr[1..][i - 1] == arr[i]; }
      }
    }
  }

  /**
   A number is returned exactly when some point has a value entry whose field
   `key` holds that number and the number is not zero; zero and missing
   fields are never returned.
   */
  lemma GetValuesMembership(arr: seq<Point>, key: ValueKey, x: real)
    ensures x in GetValues(arr, key) <==>
      exists i, j :: 0 <= i < |arr| && 0 <= j < |arr[i].value| &&
        HasReading(arr[i].value[j], key) && Get(arr[i].value[j], key).value == x
    ensures x in GetValues(arr, key) ==> x != 0.0
  {
    GetValuesIsAllReadings(arr, key);
    AllReadingsMembership(arr, key, x);
    forall i | 0 <= i < |arr|
      ensures x in Readings(arr[i].value, key) <==>
        exists j :: 0 <= j < |arr[i].value| && HasReading(arr[i].value[j], key) && Get(arr[i].value[j], key).value == x
    {
      ReadingsMembership(arr[i].value, key, x);
    }
  }

  lemma {:induction false} AllReadingsLength(arr: seq<Point>, key: ValueKey)
    ensures |AllReadings(arr, key)| <= EntryCount(arr)
  {
    if |arr| > 0 {
      AllReadingsLength(arr[1..], key);
    }
  }

  /** At most one number is returned per value entry. */
  lemma GetValuesLength(arr: seq<Point>, key: ValueKey)
    ensures |GetValues(arr, key)| <= EntryCount(arr)
  {
    GetValuesIsAllReadings(arr, key);
    AllReadingsLength(arr, key);
  }

  /** Without a key, `fpVal` is read. */
  lemma DefaultKeyIsFpVal(arr: seq<Point>)
    ensures GetValues(arr) == GetValues(arr, FpVal)
    ensures GetValues([Point([PointValue(Some(2.5), Some(7.0)), PointValue(Some(0.0), None)])]) == [2.5]
  {
  }
}

=== FILE: patient.dfy ===
/**
 Identity synchronisation of a local patient with CommonWell: create, update
 and remove of the remote Patient, the find-or-create of its Person, the
 Patient<->Person link and its upgrade towards LOLA 3, and the derived link
 status.

 Each remote call is made at most once per operation, so the network is a
 record of the responses it gives (`Network`). An operation returns a `Run`:
 the events it caused, in order (calls issued, ids stored, errors captured),
 and how it ended.
 */
module CommonwellPatient {
  import opened Wrappers
  import opened Patients
  import opened Remote
  import Strings

  /** `LinkStatus` of a patient with respect to the network. */
  datatype LinkStatus = Linked | NeedsReview

  /** Reading a property of `undefined`. */
  datatype TypeError = PropertyOfUndefined

  /**
   `getLinkStatus` as written: without external data the status is
   "needs-review"; otherwise it reads `personId` of the COMMONWELL entry
   without checking that the entry exists.
   */
  function GetLinkStatus(data: Option<ExternalData>): (r: Result<LinkStatus, TypeError>)
    ensures data.None? ==> r == Success(NeedsReview)
    ensures data.Some? && Commonwell !in data.value ==> r == Failure(PropertyOfUndefined)
    ensures data.Some? && Commonwell in data.value ==>
      (r == Success(Linked) <==> Truthy(data.value[Commonwell].personId))
    ensures r.Success? <==> (data.None? || Commonwell in data.value)
  {
    if data.None? then Success(NeedsReview)
    else if Commonwell !in data.value then Failure(PropertyOfUndefined)
    else if Truthy(data.value[Commonwell].personId) then Success(Linked)
    else Success(NeedsReview)
  }

  /** External data that holds another source's entry but no COMMONWELL entry makes `getLinkStatus` throw. */
  lemma GetLinkStatusThrowsWithoutCommonwellEntry()
    ensures GetLinkStatus(Some(map[])) == Failure(PropertyOfUndefined)
    ensures GetLinkStatus(Some(map[OtherSource("X") := CommonwellData("p", None)])) == Failure(PropertyOfUndefined)
  {
  }

  /**
   The link status as intended: "linked" exactly when the patient has a
   COMMONWELL entry with a truthy person id, "needs-review" otherwise.
   */
  function LinkStatusOf(data: Option<ExternalData>): (r: LinkStatus)
    ensures r == Linked <==> CommonwellEntry(data).Some? && Truthy(CommonwellEntry(data).value.personId)
  {
    match CommonwellEntry(data)
    case None => NeedsReview
    case Some(cw) => if Truthy(cw.personId) then Linked else NeedsReview
  }

  /** The intended status agrees with `getLinkStatus` wherever the latter does not throw. */
  lemma LinkStatusOfAgrees(data: Option<ExternalData>)
    ensures GetLinkStatus(data).Success? ==> GetLinkStatus(data).value == LinkStatusOf(data)
  {
  }

  /** A strong identifier (system and value) used as proof for a link. */
  datatype StrongId = StrongId(system: string, key: string)

  /** What CommonWell answers to a Patient registration or update. */
  datatype PatientResponse = PatientResponse(id: Option<string>, selfLink: Option<string>)

  /**
   What `findOrCreatePerson` returns when it finds or enrolls a Person: its id
   and the strong ids it shares with the patient (`getMatchingStrongIds`).
   */
  datatype FoundPerson = FoundPerson(personId: string, strongIds: seq<StrongId>)

  datatype PersonResponse = PersonResponse(enrolled: bool)

  /** One entry of `_embedded.patientLink` of a Person's patient links. */
  datatype PatientLink = PatientLink(patient: Option<string>, assuranceLevel: Option<string>)

  /**
   The responses of the network during one operation, and the strong ids the
   local patient shares with the Person built from its own demographics.
   `patientDataFound` is false when the organization or facility lookup fails.
   */
  datatype Network = Network(
    patientDataFound: bool,
    registerPatient: Result<PatientResponse, NetError>,
    updatePatient: Result<PatientResponse, NetError>,
    findOrCreatePerson: Result<Option<FoundPerson>, NetError>,
    addPatientLink: Result<(), NetError>,
    updatePerson: Result<PersonResponse, NetError>,
    reenrollPerson: Result<(), NetError>,
    patientLinks: Result<Option<seq<PatientLink>>, NetError>,
    autoUpgradeNetworkLinks: Result<(), NetError>,
    deletePatient: Result<(), NetError>,
    localStrongIds: seq<StrongId>)

  /** The calls issued to CommonWell. */
  datatype Call =
    | RegisterPatient
    | UpdatePatient(cwPatientId: string)
    | FindOrCreatePerson(cwPatientId: string)
    | AddPatientLink(personId: string, patientRefLink: string, proof: Option<StrongId>)
    | UpdatePerson(personId: string)
    | ReenrollPerson(personId: string)
    | GetPatientLinks(personId: string)
    | AutoUpgradeNetworkLinks(cwPatientId: string, personId: string)
    | DeletePatient(cwPatientId: string)

  datatype SyncError =
    | RemoteFailure(cause: NetError)
    | PatientIdMissing
    | PatientRefLinkMissing
    | PatientDataNotFound

  /** Calls issued, ids stored with `setCommonwellId`, errors sent to `capture.error`. */
  datatype Event = Issued(call: Call) | StoreIds(cwPatientId: string, personId: Option<string>) | Captured(error: SyncError)

  datatype Run<T> = Run(events: seq<Event>, result: Result<T, SyncError>)

  /** `strongIds.length ? strongIds[0] : undefined`. */
  function FirstOrNone(ids: seq<StrongId>): (r: Option<StrongId>)
    ensures r.None? <==> |ids| == 0
    ensures r.Some? ==> r.value == ids[0]
  {
    if |ids| > 0 then Some(ids[0]) else None
  }

  /** The run issued some `addPatientLink`. */
  predicate LinksPatient(events: seq<Event>) {
    exists i :: 0 <= i < |events| && events[i].Issued? && events[i].call.AddPatientLink?
  }

  /** Every id stored during the run is for the remote patient `cwPatientId`. */
  predicate StoresOnly(events: seq<Event>, cwPatientId: string) {
    forall i :: 0 <= i < |events| && events[i].StoreIds? ==> events[i].cwPatientId == cwPatientId
  }

  predicate NoCaptures(events: seq<Event>) {
    forall i :: 0 <= i < |events| ==> !events[i].Captured?
  }

  /** A registered patient: its CommonWell id and the reference link to it. */
  datatype Registered = Registered(cwPatientId: string, patientRefLink: string)

  /**
   `registerPatient`: throws when the response has no id; otherwise stores the
   id at once and only then requires the self link, so a missing link throws
   with the id already stored.
   */
  function RegisterPatient(net: Network): (r: Run<Registered>)
    ensures |r.events| >= 1 && r.events[0] == Issued(Call.RegisterPatient)
    ensures net.registerPatient.Failure? ==>
      r == Run([Issued(Call.RegisterPatient)], Failure(RemoteFailure(net.registerPatient.error)))
    ensures net.registerPatient.Success? && !Truthy(net.registerPatient.value.id) ==>
      r == Run([Issued(Call.RegisterPatient)], Failure(PatientIdMissing))
    ensures net.registerPatient.Success? && Truthy(net.registerPatient.value.id) ==>
      r.events == [Issued(Call.RegisterPatient), StoreIds(net.registerPatient.value.id.value, None)]
    ensures r.result.Success? <==>
      net.registerPatient.Success? && Truthy(net.registerPatient.value.id) && Truthy(net.registerPatient.value.selfLink)
    ensures r.result.Success? ==>
      r.result.value == Registered(net.registerPatient.value.id.value, net.registerPatient.value.selfLink.value)
    ensures r.result.Failure? && r.result.error == PatientRefLinkMissing ==>
      StoreIds(net.registerPatient.value.id.value, None) in r.events
    ensures NoCaptures(r.events) && !LinksPatient(r.events)
  {
    var issued := [Issued(Call.RegisterPatient)];
    match net.registerPatient
    case Failure(e) => Run(issued, Failure(RemoteFailure(e)))
    case Success(resp) =>
      if !Truthy(resp.id) then Run(issued, Failure(PatientIdMissing))
      else
        var events := issued + [StoreIds(resp.id.value, None)];
        if !Truthy(resp.selfLink) then Run(events, Failure(PatientRefLinkMissing))
        else Run(events, Success(Registered(resp.id.value, resp.selfLink.value)))
  }

  /**
   `findOrCreatePersonAndLink`: nothing more happens when no Person is found.
   Otherwise the person id is stored first, then the Patient is linked to it
   with the first shared strong id as proof (or none), then the network links
   are auto-upgraded; the person id is returned.
   */
  function FindOrCreatePersonAndLink(net: Network, cwPatientId: string, patientRefLink: string): (r: Run<Option<string>>)
    ensures |r.events| >= 1 && r.events[0] == Issued(FindOrCreatePerson(cwPatientId))
    ensures net.findOrCreatePerson.Failure? ==>
      r == Run([Issued(FindOrCreatePerson(cwPatientId))], Failure(RemoteFailure(net.findOrCreatePerson.error)))
    ensures net.findOrCreatePerson == Success(None) ==>
      r == Run([Issued(FindOrCreatePerson(cwPatientId))], Success(None))
    ensures net.findOrCreatePerson.Success? && net.findOrCreatePerson.value.Some? ==>
      var found := net.findOrCreatePerson.value.value;
      && |r.events| >= 3
      && r.events[1] == StoreIds(cwPatientId, Some(found.personId))
      && r.events[2] == Issued(AddPatientLink(found.personId, patientRefLink, FirstOrNone(found.strongIds)))
      && (forall i :: 2 <= i < |r.events| ==> !r.events[i].StoreIds?)
      && (r.result.Success? <==> net.addPatientLink.Success? && net.autoUpgradeNetworkLinks.Success?)
      && (r.result.Success? ==> r.result.value == Some(found.personId))
    ensures LinksPatient(r.events) <==> net.findOrCreatePerson.Success? && net.findOrCreatePerson.value.Some?
    ensures StoresOnly(r.events, cwPatientId) && NoCaptures(r.events)
  {
    var issued := [Issued(FindOrCreatePerson(cwPatientId))];
    match net.findOrCreatePerson
    case Failure(e) => Run(issued, Failure(RemoteFailure(e)))
    case Success(None) => Run(issued, Success(None))
    case Success(Some(found)) =>
      var linked := issued + [StoreIds(cwPatientId, Some(found.personId)),
        Issued(AddPatientLink(found.personId, patientRefLink, FirstOrNone(found.strongIds)))];
      assert linked[2].Issued? && linked[2].call.AddPatientLink?;
      match net.addPatientLink
      case Failure(e) => Run(linked, Failure(RemoteFailure(e)))
      case Success(_) =>
        var upgraded := linked + [Issued(AutoUpgradeNetworkLinks(cwPatientId, found.personId))];
        assert upgraded[2] == linked[2];
        match net.autoUpgradeNetworkLinks
        case Failure(e) => Run(upgraded, Failure(RemoteFailure(e)))
        case Success(_) => Run(upgraded, Success(Some(found.personId)))
  }

  /** `updatePatient`: re-sends the demographics and requires the self link of the answer. */
  function UpdatePatient(net: Network, cwPatientId: string): (r: Run<string>)
    ensures r.events == [Issued(Call.UpdatePatient(cwPatientId))]
    ensures r.result.Success? <==> net.updatePatient.Success? && Truthy(net.updatePatient.value.selfLink)
    ensures r.result.Success? ==> r.result.value == net.updatePatient.value.selfLink.value
    ensures net.updatePatient.Failure? ==> r.result == Failure(RemoteFailure(net.updatePatient.error))
  {
    var issued := [Issued(Call.UpdatePatient(cwPatientId))];
    match net.updatePatient
    case Failure(e) => Run(issued, Failure(RemoteFailure(e)))
    case Success(resp) =>
      if Truthy(resp.selfLink) then Run(issued, Success(resp.selfLink.value))
      else Run(issued, Failure(PatientRefLinkMissing))
  }

  /** The link references the CommonWell patient `cwPatientId`. */
  predicate Refers(link: PatientLink, cwPatientId: string) {
    Truthy(link.patient) && Strings.Contains(link.patient.value, cwPatientId)
  }

  /** `i` is the position of the first link that refers to the patient. */
  predicate FirstMatchAt(links: seq<PatientLink>, cwPatientId: string, i: int) {
    0 <= i < |links| && Refers(links[i], cwPatientId) &&
    forall j :: 0 <= j < i ==> !Refers(links[j], cwPatientId)
  }

  /**
   The first link whose patient reference is present and non-empty and
   contains the CommonWell patient id; an absent or empty reference never
   matches.
   */
  function LinkToPatient(links: seq<PatientLink>, cwPatientId: string): (r: Option<PatientLink>)
    ensures r.None? <==> forall i :: 0 <= i < |links| ==> !Refers(links[i], cwPatientId)
    ensures r.Some? ==> Truthy(r.value.patient) && Strings.Contains(r.value.patient.value, cwPatientId)
    ensures r.Some? ==> exists i :: FirstMatchAt(links, cwPatientId, i) && links[i] == r.value
  {
    if |links| == 0 then None
    else if Refers(links[0], cwPatientId) then
      assert FirstMatchAt(links, cwPatientId, 0);
      Some(links[0])
    else
      var r := LinkToPatient(links[1..], cwPatientId);
      assert forall i :: 1 <= i < |links| ==> links[i] == links[1..][i - 1];
      if r.Some? then
        var i :| FirstMatchAt(links[1..], cwPatientId, i) && links[1..][i] == r.value;
        assert FirstMatchAt(links, cwPatientId, i + 1);
        r
      else r
  }

  /**
   An empty patient reference is falsy and never matches, even though the
   empty string contains every empty id; a later link with a reference
   still does.
   */
  lemma EmptyReferenceSkipped(id: string)
    requires id != ""
    ensures LinkToPatient([PatientLink(Some(""), None)], "") == None
    ensures LinkToPatient([PatientLink(Some(""), None), PatientLink(Some(id), None)], id) == Some(PatientLink(Some(id), None))
  {
    assert Strings.Contains(id, id);
  }

  /** The LOLA levels at or above 3, as `LOLA.level_3` and `LOLA.level_4` print. */
  predicate IsLola3Plus(level: string) {
    level == "3" || level == "4"
  }

  datatype LinkInfo = LinkInfo(hasLink: bool, isLinkLola3Plus: bool, strongIds: seq<StrongId>)

  /**
   `getLinkInfo`: whether the Person has a link with an assurance level to the
   patient, whether that level is 3 or 4, and the shared strong ids.
   */
  function GetLinkInfo(links: Option<seq<PatientLink>>, cwPatientId: string, strongIds: seq<StrongId>): (r: LinkInfo)
    ensures r.strongIds == strongIds
    ensures r.isLinkLola3Plus ==> r.hasLink
    ensures links.None? ==> !r.hasLink
    ensures links.Some? ==>
      var l := LinkToPatient(links.value, cwPatientId);
      && (r.hasLink <==> l.Some? && Truthy(l.value.assuranceLevel))
      && (r.isLinkLola3Plus <==> l.Some? && l.value.assuranceLevel.Some? && IsLola3Plus(l.value.assuranceLevel.value))
  {
    var l := if links.Some? then LinkToPatient(links.value, cwPatientId) else None;
    var hasLink := l.Some? && Truthy(l.value.assuranceLevel);
    var lola3Plus := l.Some? && Truthy(l.value.assuranceLevel) && IsLola3Plus(l.value.assuranceLevel.value);
    LinkInfo(hasLink, lola3Plus, strongIds)
  }

  /** The upgrade rule: link when there is no leveled link, or it is below LOLA 3 and a strong id is shared. */
  predicate ShouldLink(info: LinkInfo) {
    !info.hasLink || (!info.isLinkLola3Plus && |info.strongIds| > 0)
  }

  /** The Person<->Patient link upgrade attempted by `update` (fetch links, link when the rule says so). */
  function UpgradeLink(net: Network, cwPatientId: string, personId: string, patientRefLink: string): (r: Run<()>)
    ensures |r.events| >= 1 && r.events[0] == Issued(GetPatientLinks(personId))
    ensures LinksPatient(r.events) <==>
      net.patientLinks.Success? && ShouldLink(GetLinkInfo(net.patientLinks.value, cwPatientId, net.localStrongIds))
    ensures LinksPatient(r.events) ==>
      r.events == [Issued(GetPatientLinks(personId)),
        Issued(AddPatientLink(personId, patientRefLink, FirstOrNone(net.localStrongIds)))]
    ensures r.result.Success? <==> net.patientLinks.Success? && (LinksPatient(r.events) ==> net.addPatientLink.Success?)
    ensures NoCaptures(r.events) && StoresOnly(r.events, cwPatientId)
  {
    var issued := [Issued(GetPatientLinks(personId))];
    match net.patientLinks
    case Failure(e) => Run(issued, Failure(RemoteFailure(e)))
    case Success(links) =>
      var info := GetLinkInfo(links, cwPatientId, net.localStrongIds);
      if ShouldLink(info) then
        var events := issued + [Issued(AddPatientLink(personId, patientRefLink, FirstOrNone(info.strongIds)))];
        assert events[1].Issued? && events[1].call.AddPatientLink?;
        match net.addPatientLink
        case Failure(e) => Run(events, Failure(RemoteFailure(e)))
        case Success(_) => Run(events, Success(()))
      else Run(issued, Success(()))
  }

  /** A link already at LOLA 3 or 4 is never re-linked by the upgrade step. */
  lemma Lola3PlusLinkIsNotUpgraded(net: Network, cwPatientId: string, personId: string, patientRefLink: string, links: seq<PatientLink>)
    requires net.patientLinks == Success(Some(links))
    requires LinkToPatient(links, cwPatientId).Some?
    requires LinkToPatient(links, cwPatientId).value.assuranceLevel in {Some("3"), Some("4")}
    ensures !LinksPatient(UpgradeLink(net, cwPatientId, personId, patientRefLink).events)
  {
  }

  /**
   The fallback of `update` when updating or re-enrolling the Person fails:
   a 404 falls back to find-or-create-and-link and ends the update (result
   false); any other error is rethrown.
   */
  function NotFoundFallback(net: Network, prefix: seq<Event>, e: NetError, cwPatientId: string, patientRefLink: string): (r: Run<bool>)
    ensures !IsNotFound(e) ==> r == Run(prefix, Failure(RemoteFailure(e)))
    ensures IsNotFound(e) ==>
      r.events == prefix + FindOrCreatePersonAndLink(net, cwPatientId, patientRefLink).events
    ensures IsNotFound(e) ==>
      (r.result.Success? <==> FindOrCreatePersonAndLink(net, cwPatientId, patientRefLink).result.Success?)
    ensures r.result.Success? ==> r.result.value == false
  {
    if IsNotFound(e) then
      var f := FindOrCreatePersonAndLink(net, cwPatientId, patientRefLink);
      Run(prefix + f.events, if f.result.Success? then Success(false) else Failure(f.result.error))
    else Run(prefix, Failure(RemoteFailure(e)))
  }

  /**
   Updating an existing Person: re-enroll it when the update reports it
   unenrolled; a 404 from either call falls back to find-or-create. The
   result tells whether the update goes on to the link upgrade.
   */
  function UpdatePersonStep(net: Network, cwPatientId: string, personId: string, patientRefLink: string): (r: Run<bool>)
    ensures |r.events| >= 1 && r.events[0] == Issued(UpdatePerson(personId))
    ensures net.updatePerson.Success? && !net.updatePerson.value.enrolled ==>
      |r.events| >= 2 && r.events[1] == Issued(ReenrollPerson(personId))
    ensures net.updatePerson.Success? && !net.updatePerson.value.enrolled && net.reenrollPerson.Success? ==>
      r == Run([Issued(UpdatePerson(personId)), Issued(ReenrollPerson(personId))], Success(true))
    ensures (net.updatePerson.Success? && !net.updatePerson.value.enrolled &&
             net.reenrollPerson.Failure? && !IsNotFound(net.reenrollPerson.error)) ==>
      r == Run([Issued(UpdatePerson(personId)), Issued(ReenrollPerson(personId))], Failure(RemoteFailure(net.reenrollPerson.error)))
    ensures (net.updatePerson.Success? && !net.updatePerson.value.enrolled &&
             net.reenrollPerson.Failure? && IsNotFound(net.reenrollPerson.error)) ==>
      r.events == [Issued(UpdatePerson(personId)), Issued(ReenrollPerson(personId))] + FindOrCreatePersonAndLink(net, cwPatientId, patientRefLink).events
      && (r.result.Success? ==> r.result.value == false)
    ensures net.updatePerson.Success? && net.updatePerson.value.enrolled ==>
      r == Run([Issued(UpdatePerson(personId))], Success(true))
    ensures net.updatePerson.Failure? && !IsNotFound(net.updatePerson.error) ==>
      r == Run([Issued(UpdatePerson(personId))], Failure(RemoteFailure(net.updatePerson.error)))
    ensures net.updatePerson.Failure? && IsNotFound(net.updatePerson.error) ==>
      r.events == [Issued(UpdatePerson(personId))] + FindOrCreatePersonAndLink(net, cwPatientId, patientRefLink).events
      && (r.result.Success? ==> r.result.value == false)
    ensures NoCaptures(r.events) && StoresOnly(r.events, cwPatientId)
  {
    var issued := [Issued(UpdatePerson(personId))];
    match net.updatePerson
    case Failure(e) => NotFoundFallback(net, issued, e, cwPatientId, patientRefLink)
    case Success(resp) =>
      if resp.enrolled then Run(issued, Success(true))
      else
        var reenrolled := issued + [Issued(ReenrollPerson(personId))];
        match net.reenrollPerson
        case Failure(e) => NotFoundFallback(net, reenrolled, e, cwPatientId, patientRefLink)
        case Success(_) => Run(reenrolled, Success(true))
  }

  /** Adds the `capture.error` of the operation's `catch` to a failed run. */
  function Capture<T>(r: Run<T>): (c: Run<T>)
    ensures c.result == r.result
    ensures r.result.Success? ==> c.events == r.events
    ensures r.result.Failure? ==> c.events == r.events + [Captured(r.result.error)]
  {
    if r.result.Failure? then Run(r.events + [Captured(r.result.error)], r.result) else r
  }

  /** Drops the value of a run's result. */
  function Done<T>(r: Run<T>): (d: Run<()>)
    ensures d.events == r.events
    ensures d.result.Success? <==> r.result.Success?
    ensures r.result.Failure? ==> d.result == Failure(r.result.error)
  {
    if r.result.Success? then Run(r.events, Success(())) else Run(r.events, Failure(r.result.error))
  }

  /** The body of `create`'s `try`. */
  function CreateSteps(net: Network): (r: Run<()>)
    ensures NoCaptures(r.events)
  {
    if !net.patientDataFound then Run([], Failure(PatientDataNotFound))
    else
      var reg := RegisterPatient(net);
      match reg.result
      case Failure(e) => Run(reg.events, Failure(e))
      case Success(registered) =>
        var f := FindOrCreatePersonAndLink(net, registered.cwPatientId, registered.patientRefLink);
        Done(Run(reg.events + f.events, f.result))
  }

  /**
   `create`: register the Patient, then find or create its Person and link
   them; any failure is captured once and rethrown.
   */
  function Create(net: Network): (r: Run<()>)
    ensures r.result.Failure? ==> |r.events| >= 1 && r.events[|r.events| - 1] == Captured(r.result.error)
    ensures r.result.Failure? ==> NoCaptures(r.events[..|r.events| - 1])
    ensures r.result.Success? ==> NoCaptures(r.events)
    ensures r.result.Success? <==>
      && net.patientDataFound
      && RegisterPatient(net).result.Success?
      && FindOrCreatePersonAndLink(net, RegisterPatient(net).result.value.cwPatientId,
           RegisterPatient(net).result.value.patientRefLink).result.Success?
  {
    var steps := CreateSteps(net);
    var r := Capture(steps);
    assert r.result.Failure? ==> r.events[..|r.events| - 1] == steps.events;
    r
  }

  /**
   When `update` of a patient with a COMMONWELL entry succeeds: its data is
   found and the Patient update returns a reference link; then, without a
   person id, find-or-create-and-link succeeds; with one, the Person step
   succeeds and, unless it fell back to find-or-create, the link upgrade and
   the network-link auto-upgrade succeed.
   */
  predicate UpdateSucceeds(net: Network, cw: CommonwellData) {
    var up := UpdatePatient(net, cw.patientId);
    && net.patientDataFound
    && up.result.Success?
    && (!Truthy(cw.personId) ==> FindOrCreatePersonAndLink(net, cw.patientId, up.result.value).result.Success?)
    && (Truthy(cw.personId) ==>
      var ps := UpdatePersonStep(net, cw.patientId, cw.personId.value, up.result.value);
      && ps.result.Success?
      && (ps.result.value ==>
        && UpgradeLink(net, cw.patientId, cw.personId.value, up.result.value).result.Success?
        && net.autoUpgradeNetworkLinks.Success?))
  }

  /** The body of `update`'s `try` once the COMMONWELL entry is known. */
  function UpdateSteps(net: Network, cw: CommonwellData): (r: Run<()>)
    ensures NoCaptures(r.events) && StoresOnly(r.events, cw.patientId)
    ensures !net.patientDataFound ==> r == Run([], Failure(PatientDataNotFound))
    ensures net.patientDataFound ==> |r.events| >= 1 && r.events[0] == Issued(Call.UpdatePatient(cw.patientId))
  {
    if !net.patientDataFound then Run([], Failure(PatientDataNotFound))
    else
      var up := UpdatePatient(net, cw.patientId);
      match up.result
      case Failure(e) => Run(up.events, Failure(e))
      case Success(refLink) =>
        if !Truthy(cw.personId) then
          var f := FindOrCreatePersonAndLink(net, cw.patientId, refLink);
          Done(Run(up.events + f.events, f.result))
        else
          var personId := cw.personId.value;
          var ps := UpdatePersonStep(net, cw.patientId, personId, refLink);
          var afterPerson := up.events + ps.events;
          match ps.result
          case Failure(e) => Run(afterPerson, Failure(e))
          case Success(goOn) =>
            if !goOn then Run(afterPerson, Success(()))
            else
              var ul := UpgradeLink(net, cw.patientId, personId, refLink);
              var afterLink := afterPerson + ul.events;
              match ul.result
              case Failure(e) => Run(afterLink, Failure(e))
              case Success(_) =>
                var events := afterLink + [Issued(AutoUpgradeNetworkLinks(cw.patientId, personId))];
                match net.autoUpgradeNetworkLinks
                case Failure(e) => Run(events, Failure(RemoteFailure(e)))
                case Success(_) => Run(events, Success(()))
  }

  /** `update`'s steps succeed exactly when every step they take succeeds. */
  lemma UpdateStepsOutcome(net: Network, cw: CommonwellData)
    ensures UpdateSteps(net, cw).result.Success? <==> UpdateSucceeds(net, cw)
  {
  }

  /**
   The calls `update` makes once the COMMONWELL entry is known, in order:
   the Patient update, then find-or-create-and-link without a person id, or
   the Person step followed (unless it fell back) by the link upgrade and the
   network-link auto-upgrade; each failure ends the run.
   */
  lemma UpdateStepsEvents(net: Network, cw: CommonwellData)
    ensures var r := UpdateSteps(net, cw); var up := UpdatePatient(net, cw.patientId);
      net.patientDataFound ==>
      && |r.events| >= 1 && r.events[0] == Issued(Call.UpdatePatient(cw.patientId))
      && (up.result.Failure? ==> r == Run(up.events, Failure(up.result.error)))
    ensures var r := UpdateSteps(net, cw); var up := UpdatePatient(net, cw.patientId);
      net.patientDataFound && up.result.Success? && !Truthy(cw.personId) ==>
      r.events == up.events + FindOrCreatePersonAndLink(net, cw.patientId, up.result.value).events
    ensures var r := UpdateSteps(net, cw); var up := UpdatePatient(net, cw.patientId);
      net.patientDataFound && up.result.Success? && Truthy(cw.personId) ==>
      var ps := UpdatePersonStep(net, cw.patientId, cw.personId.value, up.result.value);
      var ul := UpgradeLink(net, cw.patientId, cw.personId.value, up.result.value);
      && (ps.result.Failure? || ps.result == Success(false) ==> r.events == up.events + ps.events)
      && (ps.result == Success(true) && ul.result.Failure? ==> r.events == up.events + ps.events + ul.events)
      && (ps.result == Success(true) && ul.result.Success? ==>
        r.events == up.events + ps.events + ul.events + [Issued(AutoUpgradeNetworkLinks(cw.patientId, cw.personId.value))])
  {
  }

  /**
   `update`: without a COMMONWELL entry it is exactly `create` (whose
   rejection escapes `update`'s `catch`, as `create` is returned without
   being awaited). Otherwise the Patient is updated; a Patient without a
   person id gets find-or-create-and-link; else the Person is updated (with
   re-enrolment and the 404 fallback) and the link upgrade and network-link
   auto-upgrade follow. Every stored id keeps the existing CommonWell patient
   id, and a failure is captured once and rethrown.
   */
  function Update(net: Network, externalData: Option<ExternalData>): (r: Run<()>)
    ensures CommonwellEntry(externalData).None? ==> r == Create(net)
    ensures CommonwellEntry(externalData).Some? ==> StoresOnly(r.events, CommonwellEntry(externalData).value.patientId)
    ensures r.result.Failure? ==> |r.events| >= 1 && r.events[|r.events| - 1] == Captured(r.result.error)
    ensures r.result.Failure? ==> NoCaptures(r.events[..|r.events| - 1])
    ensures r.result.Success? ==> NoCaptures(r.events)
    ensures CommonwellEntry(externalData).Some? ==>
      (r.result.Success? <==> UpdateSucceeds(net, CommonwellEntry(externalData).value))
  {
    match CommonwellEntry(externalData)
    case None => Create(net)
    case Some(cw) =>
      var steps := UpdateSteps(net, cw);
      UpdateStepsOutcome(net, cw);
      var r := Capture(steps);
      assert r.result.Failure? ==> r.events[..|r.events| - 1] == steps.events;
      r
  }

  /**
   `remove`: without a COMMONWELL entry it succeeds and calls nothing;
   otherwise it deletes the remote Patient. The local ids are kept.
   */
  function Remove(net: Network, externalData: Option<ExternalData>): (r: Run<()>)
    ensures CommonwellEntry(externalData).None? ==> r == Run([], Success(()))
    ensures CommonwellEntry(externalData).Some? && net.patientDataFound ==>
      |r.events| >= 1 && r.events[0] == Issued(DeletePatient(CommonwellEntry(externalData).value.patientId))
    ensures r.result.Success? <==>
      CommonwellEntry(externalData).None? || (net.patientDataFound && net.deletePatient.Success?)
    ensures r.result.Failure? ==> |r.events| >= 1 && r.events[|r.events| - 1] == Captured(r.result.error)
    ensures forall i :: 0 <= i < |r.events| ==> !r.events[i].StoreIds?
  {
    match CommonwellEntry(externalData)
    case None => Run([], Success(()))
    case Some(cw) =>
      if !net.patientDataFound then Capture(Run([], Failure(PatientDataNotFound)))
      else
        var issued := [Issued(DeletePatient(cw.patientId))];
        match net.deletePatient
        case Failure(e) => Capture(Run(issued, Failure(RemoteFailure(e))))
        case Success(_) => Run(issued, Success(()))
  }

  /** The external data after the `setCommonwellId` writes of a run, in order. */
  function ApplyStores(data: Option<ExternalData>, events: seq<Event>): (r: Option<ExternalData>)
    ensures (forall i :: 0 <= i < |events| ==> !events[i].StoreIds?) ==> r == data
    ensures |events| > 0 && events[|events| - 1].StoreIds? ==>
      CommonwellEntry(r) == Some(CommonwellData(events[|events| - 1].cwPatientId, events[|events| - 1].personId))
    decreases |events|
  {
    if |events| == 0 then data
    else
      var last := events[|events| - 1];
      var before := ApplyStores(data, events[..|events| - 1]);
      if last.StoreIds? then Some(SetCommonwellIds(before, last.cwPatientId, last.personId)) else before
  }

  lemma {:induction false} ApplyStoresAppend(data: Option<ExternalData>, a: seq<Event>, b: seq<Event>)
    ensures ApplyStores(data, a + b) == ApplyStores(ApplyStores(data, a), b)
    decreases |b|
  {
    if |b| == 0 {
      assert a + b == a;
    } else {
      assert (a + b)[..|a + b| - 1] == a + b[..|b| - 1];
      ApplyStoresAppend(data, a, b[..|b| - 1]);
    }
  }

  /** Writes that all carry `cwPatientId` keep a COMMONWELL entry for that patient id. */
  lemma {:induction false} ApplyStoresKeepsPatientId(data: Option<ExternalData>, events: seq<Event>, cwPatientId: string)
    requires StoresOnly(events, cwPatientId)
    requires CommonwellEntry(data).Some? && CommonwellEntry(data).value.patientId == cwPatientId
    ensures CommonwellEntry(ApplyStores(data, events)).Some?
    ensures CommonwellEntry(ApplyStores(data, events)).value.patientId == cwPatientId
    decreases |events|
  {
    if |events| > 0 {
      var prefix := events[..|events| - 1];
      assert forall i :: 0 <= i < |prefix| ==> prefix[i] == events[i];
      ApplyStoresKeepsPatientId(data, prefix, cwPatientId);
    }
  }

  /** Appending a run without writes leaves the stored ids as they were. */
  lemma ApplyStoresNoWrites(data: Option<ExternalData>, a: seq<Event>, b: seq<Event>)
    requires forall i :: 0 <= i < |b| ==> !b[i].StoreIds?
    ensures ApplyStores(data, a + b) == ApplyStores(data, a)
  {
    ApplyStoresAppend(data, a, b);
  }

  /**
   `create` persists the CommonWell patient id as soon as it is known: once the
   registration answers with an id, the stored entry holds that id whatever
   happens next, with no person id when the self link is missing (and
   `create` fails), and with the found person's id once the Person is linked.
   */
  lemma CreatePersistsIds(net: Network, data: Option<ExternalData>)
    requires net.patientDataFound
    requires net.registerPatient.Success? && Truthy(net.registerPatient.value.id)
    ensures var stored := CommonwellEntry(ApplyStores(data, Create(net).events));
      stored.Some? && stored.value.patientId == net.registerPatient.value.id.value
    ensures !Truthy(net.registerPatient.value.selfLink) ==>
      && CommonwellEntry(ApplyStores(data, Create(net).events)) == Some(CommonwellData(net.registerPatient.value.id.value, None))
      && Create(net).result == Failure(PatientRefLinkMissing)
    ensures Truthy(net.registerPatient.value.selfLink) && net.findOrCreatePerson.Success? && net.findOrCreatePerson.value.Some? ==>
      CommonwellEntry(ApplyStores(data, Create(net).events)).value.personId == Some(net.findOrCreatePerson.value.value.personId)
  {
    var reg := RegisterPatient(net);
    var id := net.registerPatient.value.id.value;
    assert reg.events == [Issued(Call.RegisterPatient), StoreIds(id, None)];
    assert CommonwellEntry(ApplyStores(data, reg.events)) == Some(CommonwellData(id, None));
    if reg.result.Failure? {
      CreateStopsAfterRegistration(net, data);
    } else {
      CreateAfterRegistration(net, data);
    }
  }

  /** `create` when registration stores the id but fails for want of the self link. */
  lemma CreateStopsAfterRegistration(net: Network, data: Option<ExternalData>)
    requires net.patientDataFound
    requires net.registerPatient.Success? && Truthy(net.registerPatient.value.id)
    requires RegisterPatient(net).result.Failure?
    ensures Create(net).events == RegisterPatient(net).events + [Captured(PatientRefLinkMissing)]
    ensures ApplyStores(data, Create(net).events) == ApplyStores(data, RegisterPatient(net).events)
  {
    var reg := RegisterPatient(net);
    var steps := CreateSteps(net);
    assert steps.events == reg.events;
    ApplyStoresNoWrites(data, reg.events, [Captured(steps.result.error)]);
  }

  /**
   `create` once registration succeeded: the later writes keep the patient id,
   and a found Person's id is the last one written.
   */
  lemma CreateAfterRegistration(net: Network, data: Option<ExternalData>)
    requires net.patientDataFound
    requires RegisterPatient(net).result.Success?
    ensures var id := RegisterPatient(net).result.value.cwPatientId;
      var stored := CommonwellEntry(ApplyStores(data, Create(net).events));
      stored.Some? && stored.value.patientId == id
    ensures net.findOrCreatePerson.Success? && net.findOrCreatePerson.value.Some? ==>
      CommonwellEntry(ApplyStores(data, Create(net).events)).value.personId == Some(net.findOrCreatePerson.value.value.personId)
  {
    var reg := RegisterPatient(net);
    var id := reg.result.value.cwPatientId;
    var afterReg := ApplyStores(data, reg.events);
    assert CommonwellEntry(afterReg) == Some(CommonwellData(id, None));
    var steps := CreateSteps(net);
    var f := FindOrCreatePersonAndLink(net, id, reg.result.value.patientRefLink);
    assert steps.events == reg.events + f.events;
    ApplyStoresAppend(data, reg.events, f.events);
    ApplyStoresKeepsPatientId(afterReg, f.events, id);
    var tail := if steps.result.Failure? then [Captured(steps.result.error)] else [];
    assert Create(net).events == steps.events + tail;
    ApplyStoresNoWrites(data, steps.events, tail);
    if net.findOrCreatePerson.Success? && net.findOrCreatePerson.value.Some? {
      FoundPersonIsStored(net, afterReg, id, reg.result.value.patientRefLink);
    }
  }

  /** A found Person: its id is written right after the lookup and never overwritten. */
  lemma FoundPersonIsStored(net: Network, data: Option<ExternalData>, cwPatientId: string, patientRefLink: string)
    requires net.findOrCreatePerson.Success? && net.findOrCreatePerson.value.Some?
    ensures CommonwellEntry(ApplyStores(data, FindOrCreatePersonAndLink(net, cwPatientId, patientRefLink).events))
      == Some(CommonwellData(cwPatientId, Some(net.findOrCreatePerson.value.value.personId)))
  {
    var f := FindOrCreatePersonAndLink(net, cwPatientId, patientRefLink);
    var found := net.findOrCreatePerson.value.value;
    var linking := f.events[..2];
    var rest := f.events[2..];
    assert linking == [Issued(FindOrCreatePerson(cwPatientId)), StoreIds(cwPatientId, Some(found.personId))];
    assert f.events == linking + rest;
    assert forall i :: 0 <= i < |rest| ==> rest[i] == f.events[i + 2];
    ApplyStoresNoWrites(data, linking, rest);
  }

  /** A registration whose answer lacks the self link: `create` fails, with "CW123" already stored. */
  lemma RegisteredIdSurvivesMissingRefLink(net: Network)
    requires net.patientDataFound
    requires net.registerPatient == Success(PatientResponse(Some("CW123"), None))
    ensures Create(net).result == Failure(PatientRefLinkMissing)
    ensures CommonwellEntry(ApplyStores(None, Create(net).events)) == Some(CommonwellData("CW123", None))
    ensures Create(net).events[|Create(net).events| - 1] == Captured(PatientRefLinkMissing)
  {
    CreatePersistsIds(net, None);
  }

  /**
   `update` of a patient that already has a CommonWell patient id never
   replaces that id: every write it makes keeps it.
   */
  lemma UpdateKeepsPatientId(net: Network, data: Option<ExternalData>)
    requires CommonwellEntry(data).Some?
    ensures CommonwellEntry(ApplyStores(data, Update(net, data).events)).Some?
    ensures CommonwellEntry(ApplyStores(data, Update(net, data).events)).value.patientId == CommonwellEntry(data).value.patientId
  {
    ApplyStoresKeepsPatientId(data, Update(net, data).events, CommonwellEntry(data).value.patientId);
  }

  /**
   The trust level of an existing link never regresses: when the Person is
   enrolled and its link to the patient is already at LOLA 3 or 4, `update`
   issues no `addPatientLink` at all.
   */
  lemma UpdateKeepsLola3PlusLink(net: Network, data: Option<ExternalData>, links: seq<PatientLink>)
    requires CommonwellEntry(data).Some? && Truthy(CommonwellEntry(data).value.personId)
    requires net.updatePerson.Success? && net.updatePerson.value.enrolled
    requires net.patientLinks == Success(Some(links))
    requires LinkToPatient(links, CommonwellEntry(data).value.patientId).Some?
    requires LinkToPatient(links, CommonwellEntry(data).value.patientId).value.assuranceLevel in {Some("3"), Some("4")}
    ensures !LinksPatient(Update(net, data).events)
  {
    var cw := CommonwellEntry(data).value;
    var steps := UpdateSteps(net, cw);
    Lola3StepsIssueNoLink(net, cw, links);
    var capture := if steps.result.Failure? then [Captured(steps.result.error)] else [];
    assert Update(net, data).events == steps.events + capture;
    LinksPatientConcat(steps.events, capture);
  }

  /** The steps of `update` for an enrolled Person already linked at LOLA 3 or 4 issue no link. */
  lemma Lola3StepsIssueNoLink(net: Network, cw: CommonwellData, links: seq<PatientLink>)
    requires Truthy(cw.personId)
    requires net.updatePerson.Success? && net.updatePerson.value.enrolled
    requires net.patientLinks == Success(Some(links))
    requires LinkToPatient(links, cw.patientId).Some?
    requires LinkToPatient(links, cw.patientId).value.assuranceLevel in {Some("3"), Some("4")}
    ensures !LinksPatient(UpdateSteps(net, cw).events)
  {
    var up := UpdatePatient(net, cw.patientId);
    UpdateStepsEvents(net, cw);
    if net.patientDataFound && up.result.Success? {
      Lola3AfterPatientUpdate(net, cw, up.result.value, links);
    } else {
      assert |UpdateSteps(net, cw).events| <= 1;
    }
  }

  /** After the Patient update, the Person step and link upgrade of such a Person issue no link. */
  lemma Lola3AfterPatientUpdate(net: Network, cw: CommonwellData, refLink: string, links: seq<PatientLink>)
    requires Truthy(cw.personId)
    requires net.updatePerson.Success? && net.updatePerson.value.enrolled
    requires net.patientLinks == Success(Some(links))
    requires LinkToPatient(links, cw.patientId).Some?
    requires LinkToPatient(links, cw.patientId).value.assuranceLevel in {Some("3"), Some("4")}
    ensures var personId := cw.personId.value;
      var ps := UpdatePersonStep(net, cw.patientId, personId, refLink);
      var ul := UpgradeLink(net, cw.patientId, personId, refLink);
      && ps == Run([Issued(UpdatePerson(personId))], Success(true))
      && !LinksPatient(ul.events)
      && !LinksPatient([Issued(Call.UpdatePatient(cw.patientId))] + ps.events + ul.events + [Issued(AutoUpgradeNetworkLinks(cw.patientId, personId))])
      && !LinksPatient([Issued(Call.UpdatePatient(cw.patientId))] + ps.events + ul.events)
  {
    var personId := cw.personId.value;
    var ps := UpdatePersonStep(net, cw.patientId, personId, refLink);
    var ul := UpgradeLink(net, cw.patientId, personId, refLink);
    Lola3PlusLinkIsNotUpgraded(net, cw.patientId, personId, refLink, links);
    var head := [Issued(Call.UpdatePatient(cw.patientId))] + ps.events;
    assert !LinksPatient(head);
    LinksPatientConcat(head, ul.events);
    LinksPatientConcat(head + ul.events, [Issued(AutoUpgradeNetworkLinks(cw.patientId, personId))]);
  }

  lemma LinksPatientConcat(a: seq<Event>, b: seq<Event>)
    ensures LinksPatient(a + b) <==> LinksPatient(a) || LinksPatient(b)
  {
    if LinksPatient(a + b) {
      var i :| 0 <= i < |a + b| && (a + b)[i].Issued? && (a + b)[i].call.AddPatientLink?;
      if i >= |a| {
        assert b[i - |a|] == (a + b)[i];
      }
    }
    if LinksPatient(a) {
      var i :| 0 <= i < |a| && a[i].Issued? && a[i].call.AddPatientLink?;
      assert (a + b)[i] == a[i];
    }
    if LinksPatient(b) {
      var i :| 0 <= i < |b| && b[i].Issued? && b[i].call.AddPatientLink?;
      assert (a + b)[|a| + i] == b[i];
    }
  }
}

=== FILE: patients.dfy ===
/**
 The patient record as the CommonWell integration and the document-query
 tracker read and write it: the external data holding the remote ids, and the
 stored document-query status with its progress.
 */
module Patients {
  import opened Wrappers

  /** `MedicalDataSource`: COMMONWELL, or another source of external data. */
  datatype DataSource = Commonwell | OtherSource(name: string)

  /** `PatientDataCommonwell`: the remote patient id and, once known, the remote person id. */
  datatype CommonwellData = CommonwellData(patientId: string, personId: Option<string>)

  /** `patient.data.externalData`, keyed by data source. */
  type ExternalData = map<DataSource, CommonwellData>

  /** The stored `documentQueryStatus`. */
  datatype QueryStatus = Processing | Completed

  /** The stored document-query progress. */
  datatype Progress = Progress(completed: nat, total: nat)

  datatype Patient = Patient(
    id: string,
    cxId: string,
    facilityIds: seq<string>,
    externalData: Option<ExternalData>,
    documentQueryStatus: Option<QueryStatus>,
    documentQueryProgress: Option<Progress>)

  /** `patient.data.externalData?.COMMONWELL`. */
  function CommonwellEntry(externalData: Option<ExternalData>): (r: Option<CommonwellData>)
    ensures r.Some? <==> externalData.Some? && Commonwell in externalData.value
  {
    if externalData.Some? && Commonwell in externalData.value then Some(externalData.value[Commonwell])
    else None
  }

  /**
   The effect of `setCommonwellId`: the COMMONWELL entry becomes the given
   ids; other sources are kept.
   */
  function SetCommonwellIds(externalData: Option<ExternalData>, patientId: string, personId: Option<string>): (r: ExternalData)
    ensures CommonwellEntry(Some(r)) == Some(CommonwellData(patientId, personId))
    ensures externalData.Some? ==> forall s :: s in externalData.value && s != Commonwell ==> s in r && r[s] == externalData.value[s]
  {
    var base := if externalData.Some? then externalData.value else map[];
    base[Commonwell := CommonwellData(patientId, personId)]
  }

  /** The effect of `updateDocQuery`: the status, and the progress when one is given. */
  function UpdateDocQuery(p: Patient, status: QueryStatus, progress: Option<Progress>): (r: Patient)
    ensures r.documentQueryStatus == Some(status)
    ensures progress.Some? ==> r.documentQueryProgress == progress
    ensures progress.None? ==> r.documentQueryProgress == p.documentQueryProgress
    ensures r.externalData == p.externalData && r.id == p.id && r.cxId == p.cxId
  {
    p.(documentQueryStatus := Some(status),
       documentQueryProgress := if progress.Some? then progress else p.documentQueryProgress)
  }
}

=== FILE: providers.dfy ===
/**
 Provider selection of the connect widget: the default provider list, the
 providers named in the `providers` search parameter, and the copy kept in
 the browser's local storage under the key "providers".
 */
module Providers {
  import opened Wrappers
  import Strings

  datatype Provider = Provider(name: string, image: string)

  /** The default providers, in display order. */
  const DefaultProviders: seq<Provider> := [
    Provider("fitbit", "fitbit.webp"),
    Provider("oura", "oura.webp"),
    Provider("cronometer", "cronometer.webp"),
    Provider("whoop", "whoop.png"),
    Provider("withings", "withings.png"),
    Provider("garmin", "garmin.webp")
  ]

  const StorageKey: string := "providers"

  /**
   Local storage, holding provider lists. A list is written with
   `JSON.stringify` and read back with `JSON.parse`, which give back the same
   list, and its serialised form is never the empty string.
   */
  type Storage = map<string, seq<Provider>>

  /** The providers of `ps` whose name is one of `tokens`, in the order of `ps`. */
  function Named(ps: seq<Provider>, tokens: seq<string>): (r: seq<Provider>)
    ensures |r| <= |ps|
    ensures forall p :: p in r <==> p in ps && p.name in tokens
  {
    if |ps| == 0 then []
    else (if ps[0].name in tokens then [ps[0]] else []) + Named(ps[1..], tokens)
  }

  /**
   Filtering distributes over concatenation, so the kept providers keep the
   relative order they had in the list.
   */
  lemma {:induction false} NamedAppend(a: seq<Provider>, b: seq<Provider>, tokens: seq<string>)
    ensures Named(a + b, tokens) == Named(a, tokens) + Named(b, tokens)
    decreases |a|
  {
    if |a| == 0 {
      assert a + b == b;
    } else {
      assert (a + b)[1..] == a[1..] + b;
      NamedAppend(a[1..], b, tokens);
    }
  }

  /** One provider is kept exactly when a token names it. */
  lemma NamedSingle(p: Provider, tokens: seq<string>)
    ensures Named([p], tokens) == if p.name in tokens then [p] else []
  {
    assert [p][1..] == [];
  }

  /** Some provider of `ps` is named by one of `tokens`. */
  predicate AnyNamed(ps: seq<Provider>, tokens: seq<string>) {
    exists p :: p in ps && p.name in tokens
  }

  /** The providers of `ps` named by `tokens`, or all of `ps` when none is named. */
  function NamedOrAll(ps: seq<Provider>, tokens: seq<string>): (r: seq<Provider>)
    ensures |ps| > 0 ==> |r| > 0
    ensures forall p :: p in r ==> p in ps
    ensures AnyNamed(ps, tokens) ==> forall p :: p in r <==> p in ps && p.name in tokens
    ensures AnyNamed(ps, tokens) ==> r == Named(ps, tokens)
    ensures !AnyNamed(ps, tokens) ==> r == ps
  {
    var valid := Named(ps, tokens);
    if |valid| > 0 then
      assert valid[0] in valid;
      valid
    else
      ps
  }

  /**
   `getValidProviders`: `None` (null) for a null or empty search; otherwise
   the default providers named by a comma-separated token, or all defaults
   when no token names one.
   */
  function GetValidProviders(search: Option<string>): (r: Option<seq<Provider>>)
    ensures r.None? <==> !Truthy(search)
    ensures r.Some? ==> |r.value| > 0
    ensures r.Some? ==> forall p :: p in r.value ==> p in DefaultProviders
    ensures r.Some? && AnyNamed(DefaultProviders, Strings.Split(search.value, ',')) ==>
      forall p :: p in r.value <==> p in DefaultProviders && p.name in Strings.Split(search.value, ',')
    ensures r.Some? && AnyNamed(DefaultProviders, Strings.Split(search.value, ',')) ==>
      r.value == Named(DefaultProviders, Strings.Split(search.value, ','))
    ensures r.Some? && !AnyNamed(DefaultProviders, Strings.Split(search.value, ',')) ==>
      r.value == DefaultProviders
  {
    if Truthy(search) then Some(NamedOrAll(DefaultProviders, Strings.Split(search.value, ','))) else None
  }

  /** `getLocalStorageProviders`: the stored list, or `None` (null) when there is none. */
  function GetLocalStorageProviders(storage: Storage): (r: Option<seq<Provider>>)
    ensures r.Some? <==> StorageKey in storage
    ensures r.Some? ==> r.value == storage[StorageKey]
  {
    if StorageKey in storage then Some(storage[StorageKey]) else None
  }

  /** What `getProviders` returns, and local storage after the call. */
  datatype Selection = Selection(providers: seq<Provider>, storage: Storage)

  /**
   `getProviders`: valid providers from the search are returned, and written
   to storage unless in demo mode; without a search the stored list is
   returned if there is one, else the defaults, and storage is left alone.
   */
  function GetProviders(search: Option<string>, isDemo: bool, storage: Storage): (r: Selection)
    ensures Truthy(search) ==> Some(r.providers) == GetValidProviders(search)
    ensures Truthy(search) && !isDemo ==> r.storage == storage[StorageKey := r.providers]
    ensures Truthy(search) && isDemo ==> r.storage == storage
    ensures !Truthy(search) ==> r.storage == storage
    ensures !Truthy(search) && StorageKey in storage ==> r.providers == storage[StorageKey]
    ensures !Truthy(search) && StorageKey !in storage ==> r.providers == DefaultProviders
  {
    match GetValidProviders(search)
    case Some(valid) =>
      Selection(valid, if isDemo then storage else storage[StorageKey := valid])
    case None =>
      match GetLocalStorageProviders(storage)
      case Some(stored) => Selection(stored, storage)
      case None => Selection(DefaultProviders, storage)
  }

  /** A later visit without a search sees the providers the last non-demo search selected. */
  lemma SearchIsRemembered(search: Option<string>, storage: Storage, later: Option<string>)
    requires Truthy(search) && !Truthy(later)
    ensures GetProviders(later, false, GetProviders(search, false, storage).storage).providers
      == GetProviders(search, false, storage).providers
  {
  }

  lemma SplitExample()
    ensures Strings.Split("fitbit, oura", ',') == ["fitbit", " oura"]
    ensures Strings.Split("strava", ',') == ["strava"]
  {
    SplitPairExample();
    Strings.SplitWithout("strava", ',');
  }

  lemma SplitPairExample()
    ensures Strings.Split("fitbit, oura", ',') == ["fitbit", " oura"]
  {
    var first, second := "fitbit", " oura";
    assert "fitbit, oura" == first + [','] + second;
    assert ',' !in first;
    assert ',' !in second;
    Strings.SplitAround(first, ',', second);
    Strings.SplitWithout(first, ',');
    Strings.SplitWithout(second, ',');
  }

  lemma NamedExample()
    ensures Named(DefaultProviders, ["fitbit", " oura"]) == [Provider("fitbit", "fitbit.webp")]
    ensures Named(DefaultProviders, ["strava"]) == []
  {
    NamedPairExample();
    NamedUnknownExample();
  }

  lemma NamedPairExample()
    ensures Named(DefaultProviders, ["fitbit", " oura"]) == [Provider("fitbit", "fitbit.webp")]
  {
    var ps, tokens := DefaultProviders, ["fitbit", " oura"];
    NamedSkip(ps, tokens, 5);
    NamedSkip(ps, tokens, 4);
    NamedSkip(ps, tokens, 3);
    NamedSkip(ps, tokens, 2);
    NamedSkip(ps, tokens, 1);
    assert Named(ps[1..], tokens) == [];
  }

  lemma NamedUnknownExample()
    ensures Named(DefaultProviders, ["strava"]) == []
  {
    var ps, tokens := DefaultProviders, ["strava"];
    NamedSkip(ps, tokens, 5);
    NamedSkip(ps, tokens, 4);
    NamedSkip(ps, tokens, 3);
    NamedSkip(ps, tokens, 2);
    NamedSkip(ps, tokens, 1);
    NamedSkip(ps, tokens, 0);
  }

  /** A provider no token names is passed over. */
  lemma NamedSkip(ps: seq<Provider>, tokens: seq<string>, k: nat)
    requires k < |ps| && ps[k].name !in tokens
    ensures Named(ps[k..], tokens) == Named(ps[k + 1..], tokens)
  {
    assert ps[k..][1..] == ps[k + 1..];
  }

  /** Tokens are matched exactly, without trimming: " oura" names no provider. */
  lemma TokensAreNotTrimmed()
    ensures GetValidProviders(Some("fitbit, oura")) == Some([Provider("fitbit", "fitbit.webp")])
    ensures GetValidProviders(Some("strava")) == Some(DefaultProviders)
    ensures GetValidProviders(Some("")) == None
  {
    SplitExample();
    NamedExample();
  }
}

=== FILE: remote.dfy ===
/** Errors of calls to remote services (CommonWell, S3, the FHIR server). */
module Remote {
  import opened Wrappers

  /** An error thrown by a remote call, with the HTTP status of its response when it has one. */
  datatype NetError = NetError(status: Option<int>)

  /** `err.response?.status === 404`. */
  predicate IsNotFound(e: NetError) {
    e.status == Some(404)
  }
}

=== FILE: strings.dfy ===
/**
 String helpers used by the model: JavaScript's `String.prototype.split` on a
 single separator character, its inverse `join`, substring search
 (`String.prototype.includes`), decimal rendering of naturals (template-literal
 interpolation) and ASCII case mapping (lodash `capitalize`).
 */
module Strings {

  /** `s.split(sep)` for a one-character separator: never empty. */
  function Split(s: string, sep: char): (parts: seq<string>)
    ensures |parts| >= 1
  {
    if |s| == 0 then [""]
    else if s[0] == sep then [""] + Split(s[1..], sep)
    else
      var rest := Split(s[1..], sep);
      [[s[0]] + rest[0]] + rest[1..]
  }

  /** `parts.join(sep)`. */
  function Join(parts: seq<string>, sep: char): string
  {
    if |parts| == 0 then ""
    else if |parts| == 1 then parts[0]
    else parts[0] + [sep] + Join(parts[1..], sep)
  }

  /** Joining the parts of a split gives the original string back. */
  lemma {:induction false} JoinSplit(s: string, sep: char)
    ensures Join(Split(s, sep), sep) == s
  {
    if |s| == 0 {
    } else if s[0] == sep {
      JoinSplit(s[1..], sep);
      var rest := Split(s[1..], sep);
      assert Split(s, sep) == [""] + rest;
      assert ([""] + rest)[1..] == rest;
      assert s == [sep] + s[1..];
    } else {
      JoinSplit(s[1..], sep);
      var rest := Split(s[1..], sep);
      var parts := [[s[0]] + rest[0]] + rest[1..];
      assert Split(s, sep) == parts;
      assert parts[1..] == rest[1..];
      if |rest| == 1 {
        assert Join(rest, sep) == rest[0];
      } else {
        assert Join(rest, sep) == rest[0] + [sep] + Join(rest[1..], sep);
      }
      assert s == [s[0]] + s[1..];
    }
  }

  /** No part of a split holds the separator. */
  lemma {:induction false} SplitPartsOmitSep(s: string, sep: char)
    ensures forall i :: 0 <= i < |Split(s, sep)| ==> sep !in Split(s, sep)[i]
  {
    if |s| > 0 {
      SplitPartsOmitSep(s[1..], sep);
      SplitHead(s, sep);
    }
  }

  /** Splitting a string made of `a`, a separator and `b` splits `a` and `b` separately. */
  lemma {:induction false} SplitAround(a: string, sep: char, b: string)
    ensures Split(a + [sep] + b, sep) == Split(a, sep) + Split(b, sep)
  {
    var w := a + [sep] + b;
    if |a| == 0 {
      assert w == [sep] + b;
      assert w[1..] == b;
      SplitHead(w, sep);
    } else {
      assert w[0] == a[0];
      assert w[1..] == a[1..] + [sep] + b;
      SplitAround(a[1..], sep, b);
      SplitHead(w, sep);
      SplitHead(a, sep);
      PartsAppend(a[0], Split(a[1..], sep), Split(b, sep));
    }
  }

  /** Extending the first part of `x` by `c` commutes with appending `y`. */
  lemma PartsAppend(c: char, x: seq<string>, y: seq<string>)
    requires |x| >= 1
    ensures [""] + (x + y) == ([""] + x) + y
    ensures [[c] + (x + y)[0]] + (x + y)[1..] == ([[c] + x[0]] + x[1..]) + y
  {
    assert (x + y)[0] == x[0];
    assert (x + y)[1..] == x[1..] + y;
  }

  /** How `Split` treats the first character: a separator starts a new part, anything else extends the first. */
  lemma SplitHead(s: string, sep: char)
    requires |s| > 0
    ensures s[0] == sep ==> Split(s, sep) == [""] + Split(s[1..], sep)
    ensures s[0] != sep ==> Split(s, sep) == [[s[0]] + Split(s[1..], sep)[0]] + Split(s[1..], sep)[1..]
  {
  }

  /** A string without the separator splits into itself alone. */
  lemma {:induction false} SplitWithout(s: string, sep: char)
    requires sep !in s
    ensures Split(s, sep) == [s]
  {
    if |s| > 0 {
      assert sep !in s[1..];
      SplitWithout(s[1..], sep);
      assert [s[0]] + s[1..] == s;
    }
  }

  /** `s.includes(sub)`: `sub` occurs somewhere inside `s`. */
  predicate Contains(s: string, sub: string)
    decreases |s|
  {
    sub <= s || (|s| > 0 && Contains(s[1..], sub))
  }

  /** Every string contains itself. */
  lemma ContainsSelf(s: string)
    ensures Contains(s, s)
  {
  }

  predicate IsDigit(c: char) {
    '0' <= c <= '9'
  }

  function DigitChar(d: nat): (c: char)
    requires d < 10
    ensures IsDigit(c)
  {
    ['0', '1', '2', '3', '4', '5', '6', '7', '8', '9'][d]
  }

  function DigitValue(c: char): (d: nat)
    requires IsDigit(c)
    ensures d < 10
  {
    (c as int - '0' as int) as nat
  }

  /** The decimal rendering of `n`, as `${n}` writes an integer. */
  function NatToString(n: nat): (s: string)
    ensures |s| >= 1
    ensures forall i :: 0 <= i < |s| ==> IsDigit(s[i])
  {
    if n < 10 then [DigitChar(n)] else NatToString(n / 10) + [DigitChar(n % 10)]
  }

  /** Reads a string of decimal digits as a natural number. */
  function ParseNat(s: string): nat
    requires forall i :: 0 <= i < |s| ==> IsDigit(s[i])
  {
    if |s| == 0 then 0 else ParseNat(s[..|s| - 1]) * 10 + DigitValue(s[|s| - 1])
  }

  /** Parsing the decimal rendering of `n` gives `n` back. */
  lemma {:induction false} ParseNatToString(n: nat)
    ensures ParseNat(NatToString(n)) == n
  {
    var s := NatToString(n);
    if n < 10 {
      assert s[..0] == [];
    } else {
      ParseNatToString(n / 10);
      assert s[..|s| - 1] == NatToString(n / 10);
      assert DigitValue(s[|s| - 1]) == n % 10;
    }
  }

  /** A decimal rendering never holds a separator that is not a digit. */
  lemma NatToStringHasNo(n: nat, c: char)
    requires !IsDigit(c)
    ensures c !in NatToString(n)
  {
  }

  function ToUpperChar(c: char): char {
    if 'a' <= c <= 'z' then (c as int - 32) as char else c
  }

  function ToLowerChar(c: char): char {
    if 'A' <= c <= 'Z' then (c as int + 32) as char else c
  }

  /** `s.toLowerCase()` on ASCII letters. */
  function ToLower(s: string): (r: string)
    ensures |r| == |s|
    ensures forall i :: 0 <= i < |s| ==> r[i] == ToLowerChar(s[i])
  {
    if |s| == 0 then "" else [ToLowerChar(s[0])] + ToLower(s[1..])
  }

  /** lodash `capitalize`: lower-case everything, then upper-case the first character. */
  function Capitalize(s: string): string
  {
    var lower := ToLower(s);
    if |lower| == 0 then "" else [ToUpperChar(lower[0])] + lower[1..]
  }

  /**
   Capitalizing keeps the length, upper-cases the first character and
   lower-cases the rest; it changes letters' case only.
   */
  lemma CapitalizeShape(s: string)
    ensures |Capitalize(s)| == |s|
    ensures |s| > 0 ==> Capitalize(s)[0] == ToUpperChar(ToLowerChar(s[0]))
    ensures forall i :: 1 <= i < |s| ==> Capitalize(s)[i] == ToLowerChar(s[i])
    ensures ToLower(Capitalize(s)) == ToLower(s)
  {
    if |s| > 0 {
      var lower := ToLower(s);
      var cap := Capitalize(s);
      assert cap == [ToUpperChar(lower[0])] + lower[1..];
      assert ToLowerChar(ToUpperChar(lower[0])) == lower[0];
      assert forall i :: 1 <= i < |s| ==> cap[i] == lower[i];
      assert forall i :: 0 <= i < |s| ==> ToLower(cap)[i] == lower[i];
    }
  }
}

=== FILE: util.dfy ===
/**
 The closed-form helpers of the `Util` class: `optional`, `oneOf`,
 `isTokenExpired`, the delay computed by `sleepRandom`, `getMinMaxItem` and
 `addDataToObject`. Clocks and random draws are parameters.
 */
module Util {
  import opened Wrappers

  /** A TypeScript value of type `T | null | undefined`. */
  datatype Nullable<+T> = Null | Undefined | Present(value: T)

  /** The nullable view of an optional value (`undefined` when missing). */
  function FromOption<T>(o: Option<T>): Nullable<T> {
    match o
    case None => Undefined
    case Some(v) => Present(v)
  }

  /**
   `Util.optional`: null and undefined both become undefined, anything else
   is returned unchanged.
   */
  function Optional<T>(v: Nullable<T>): (r: Option<T>)
    ensures r.None? <==> (v == Null || v == Undefined)
    ensures v.Present? ==> r == Some(v.value)
  {
    if v.Present? then Some(v.value) else None
  }

  /** `optional` undoes the lifting of an optional value, and is idempotent. */
  lemma OptionalRoundTrip<T>(o: Option<T>, v: Nullable<T>)
    ensures Optional(FromOption(o)) == o
    ensures Optional(FromOption(Optional(v))) == Optional(v)
  {
  }

  /** `Util.oneOf`: the first argument that is neither null nor undefined. */
  function OneOf<T(==)>(values: seq<Nullable<T>>): (r: Option<T>)
    ensures r.None? <==> forall i :: 0 <= i < |values| ==> !values[i].Present?
    ensures r.Some? ==>
      exists i :: 0 <= i < |values| && values[i] == Present(r.value) &&
        forall j :: 0 <= j < i ==> !values[j].Present?
  {
    if |values| == 0 then None
    else if values[0].Present? then Some(values[0].value)
    else
      var r := OneOf(values[1..]);
      if r.Some? then
        var i :| 0 <= i < |values[1..]| && values[1..][i] == Present(r.value) &&
          forall j :: 0 <= j < i ==> !values[1..][j].Present?;
        assert values[i + 1] == Present(r.value);
        assert forall j :: 0 <= j < i + 1 ==> !values[j].Present? by {
          forall j | 0 <= j < i + 1 ensures !values[j].Present? {
            if j > 0 { assert values[j] == values[1..][j - 1]; }
          }
        }
        r
      else
        assert forall i :: 0 <= i < |values| ==> !values[i].Present? by {
          forall i | 0 <= i < |values| ensures !values[i].Present? {
            if i > 0 { assert values[i] == values[1..][i - 1]; }
          }
        }
        r
  }

  /** `oneOf(...a, ...b)` looks into `b` only when every value of `a` is missing. */
  lemma {:induction false} OneOfAppend<T>(a: seq<Nullable<T>>, b: seq<Nullable<T>>)
    ensures OneOf(a + b) == if OneOf(a).Some? then OneOf(a) else OneOf(b)
  {
    if |a| > 0 {
      assert (a + b)[0] == a[0];
      assert (a + b)[1..] == a[1..] + b;
      OneOfAppend(a[1..], b);
    } else {
      assert a + b == b;
    }
  }

  /** The refresh buffer of `isTokenExpired`, in seconds. */
  const TokenBufferSeconds: int := 600

  /**
   `Util.isTokenExpired` as written: `expiresAt` is in seconds, `nowMs` is
   `Date.now()` in milliseconds; the buffer is ADDED to the remaining time.
   */
  function IsTokenExpired(expiresAt: int, nowMs: int): (expired: bool)
    ensures expired <==> nowMs >= expiresAt * 1000 + TokenBufferSeconds * 1000
  {
    expiresAt * 1000 - nowMs + TokenBufferSeconds * 1000 <= 0
  }

  /** Once a token reads as expired it stays expired as time goes on. */
  lemma TokenExpiryMonotone(expiresAt: int, now1: int, now2: int)
    requires now1 <= now2
    requires IsTokenExpired(expiresAt, now1)
    ensures IsTokenExpired(expiresAt, now2)
  {
  }

  /**
   As written, a token whose expiry instant has passed by up to ten minutes
   still reads as valid: the buffer delays expiry instead of advancing it.
   */
  lemma TokenStillValidAfterExpiry(expiresAt: int)
    ensures !IsTokenExpired(expiresAt, expiresAt * 1000)
    ensures !IsTokenExpired(expiresAt, expiresAt * 1000 + 599999)
  {
  }

  /** The buffer applied ahead of expiry, as a refresh buffer is meant to be. */
  function IsTokenExpiredEarly(expiresAt: int, nowMs: int): (expired: bool)
    ensures expired <==> nowMs >= expiresAt * 1000 - TokenBufferSeconds * 1000
  {
    expiresAt * 1000 - nowMs - TokenBufferSeconds * 1000 <= 0
  }

  /**
   With the buffer ahead of expiry, a token reads as expired from ten minutes
   before its expiry instant on, and never after it reads as valid; it is
   monotone in the clock.
   */
  lemma TokenExpiredEarlyBeforeExpiry(expiresAt: int, nowMs: int, later: int)
    ensures nowMs >= expiresAt * 1000 ==> IsTokenExpiredEarly(expiresAt, nowMs)
    ensures IsTokenExpiredEarly(expiresAt, expiresAt * 1000 - 600000)
    ensures !IsTokenExpiredEarly(expiresAt, expiresAt * 1000 - 600001)
    ensures IsTokenExpiredEarly(expiresAt, nowMs) && nowMs <= later ==>
      IsTokenExpiredEarly(expiresAt, later)
  {
  }

  /** The default lower multiplier of `sleepRandom`. */
  const DefaultMultiplierMin: real := 0.1

  /**
   The wait chosen by `Util.sleepRandom(max, multiplierMin)` for the random
   draw `draw` of `Math.random()`; the sleep itself is not modelled.
   */
  function SleepRandomDelay(max: int, draw: real, multiplierMin: real := DefaultMultiplierMin): (wait: int)
    requires 0.0 <= draw < 1.0
    ensures 0.0 < multiplierMin <= 0.5 && max > 0 ==>
      (multiplierMin * max as real).Floor <= wait < max
  {
    var multiplier := if draw < multiplierMin then draw + multiplierMin else draw;
    if 0.0 < multiplierMin <= 0.5 && max > 0 then
      assert multiplierMin <= multiplier < 1.0;
      MulMonotone(multiplierMin, multiplier, max as real);
      MulMonotone(multiplier, 1.0, max as real);
      var x := multiplier * max as real;
      FloorMonotone(multiplierMin * max as real, x);
      assert x.Floor as real <= x < max as real;
      x.Floor
    else
      (multiplier * max as real).Floor
  }

  lemma FloorMonotone(a: real, b: real)
    requires a <= b
    ensures a.Floor <= b.Floor
  {
    assert a.Floor as real <= a && b < b.Floor as real + 1.0;
  }

  lemma MulMonotone(a: real, b: real, m: real)
    requires a <= b && m >= 0.0
    ensures a * m <= b * m
  {
    assert b * m - a * m == (b - a) * m;
  }

  /** With the default multiplier, the wait is at least a tenth of `max` and below `max`. */
  lemma SleepRandomDefaultBounds(max: int, draw: real)
    requires 0.0 <= draw < 1.0
    requires max > 0
    ensures max / 10 <= SleepRandomDelay(max, draw) < max
  {
    var w := SleepRandomDelay(max, draw);
    assert (0.1 * max as real).Floor <= w;
    assert (max / 10) as real <= 0.1 * max as real;
  }

  /** A number extended with JavaScript's two infinities. */
  datatype Extended = NegInfinity | Finite(n: int) | PosInfinity

  datatype MinMaxItem = MinMaxItem(minItem: Extended, maxItem: Extended)

  /**
   `Util.getMinMaxItem`: `Math.min(...arr)` and `Math.max(...arr)`; on an empty
   array these are `Infinity` and `-Infinity`.
   */
  method GetMinMaxItem(arr: seq<int>) returns (r: MinMaxItem)
    ensures |arr| == 0 ==> r == MinMaxItem(PosInfinity, NegInfinity)
    ensures |arr| > 0 ==> r.minItem.Finite? && r.maxItem.Finite?
    ensures |arr| > 0 ==> r.minItem.n in arr && r.maxItem.n in arr
    ensures forall i :: 0 <= i < |arr| ==> r.minItem.Finite? && r.minItem.n <= arr[i]
    ensures forall i :: 0 <= i < |arr| ==> r.maxItem.Finite? && arr[i] <= r.maxItem.n
  {
    if |arr| == 0 {
      return MinMaxItem(PosInfinity, NegInfinity);
    }
    var lo, hi := arr[0], arr[0];
    var k := 1;
    while k < |arr|
      invariant 1 <= k <= |arr|
      invariant lo in arr[..k] && hi in arr[..k]
      invariant forall i :: 0 <= i < k ==> lo <= arr[i] <= hi
    {
      if arr[k] < lo { lo := arr[k]; }
      if arr[k] > hi { hi := arr[k]; }
      k := k + 1;
    }
    assert arr[..k] == arr;
    r := MinMaxItem(Finite(lo), Finite(hi));
  }

  /** An `unknown` JavaScript value, as far as truthiness is concerned. */
  datatype JsValue =
    | JsUndefined
    | JsNull
    | JsBool(b: bool)
    | JsNumber(x: real)
    | JsString(s: string)
    | JsObject(ref: nat)

  /** JavaScript truthiness: everything except undefined, null, false, 0 and "". */
  predicate JsTruthy(v: JsValue) {
    match v
    case JsUndefined => false
    case JsNull => false
    case JsBool(b) => b
    case JsNumber(x) => x != 0.0
    case JsString(s) => s != ""
    case JsObject(_) => true
  }

  /** `Util.addDataToObject`: `{[key]: value}` for a truthy value, else undefined. */
  function AddDataToObject(key: string, value: JsValue): (r: Option<map<string, JsValue>>)
    ensures r.Some? <==> JsTruthy(value)
    ensures r.Some? ==> r.value.Keys == {key} && r.value[key] == value
  {
    if JsTruthy(value) then Some(map[key := value]) else None
  }
}

=== FILE: wrappers.dfy ===
/** Failure-carrying datatypes shared by every module of the model. */
module Wrappers {

  /** A value that may be missing: JavaScript `undefined` on the TypeScript side. */
  datatype Option<+T> = None | Some(value: T)

  /** The outcome of an operation that may throw: `Failure` carries what was thrown. */
  datatype Result<+T, +E> = Success(value: T) | Failure(error: E)

  /** True when an optional string is present and non-empty, i.e. JavaScript-truthy. */
  predicate Truthy(s: Option<string>) {
    s.Some? && s.value != ""
  }
}
